=== FILE: README.md ===
# BC credit-scoring prototype — a Dafny model

This project models the decision logic of the BC Streamlit prototype. BC is a credit-scoring demo for thin-file borrowers: gig workers, students and users of mobile-money wallets. The logic it covers:

- **Transaction features and the rule-based score** (`app/utils/scoring.py`):
  - monthly inflow and outflow aggregates over a ledger of `date, amount, type, category` rows;
  - the seven features (average inflow, income volatility, expense ratio, overdraft months, remittances, gig months, mobile-money signal);
  - the 0-100 score with its Prime / Green / Amber / Red band.
- **Ledger normalisation and the sample ledgers** (`app/utils/data.py`):
  - the four expected columns are added when missing (filled with nulls), projected in order and typed;
  - the six-month bank and mobile-money samples are anchored at a given month.
- **The AI credit dashboard** (`app/pages/2_BankLink.py`):
  - the 300-900 "AI score" of a financial profile;
  - its risk level and the recommended limit;
  - the what-if sandbox that re-scores improved behaviour.
- **The micro-loan page** (`app/pages/4_Microloan.py`):
  - the decision (approved / manual review / declined) from the AI score less a volatility penalty;
  - the APR, the maximum offer and the approved amount;
  - simple interest, the number of installments, the repayment schedule and the risk flags.
- **The lender portal** (`app/pages/5_LenderPortal.py`):
  - the borrower roster and its risk bands;
  - the portfolio overview, the filters and applicant selection;
  - the AI recommendation, the suggested exposure;
  - approving (with a simulated disbursement) or declining an application.
- **The dashboard summary** (`app/pages/3_Dashboard.py`):
  - case-insensitive resolution of the amount and date columns of an uploaded CSV, and the cash-flow totals;
  - the totals and average balance of the sandbox accounts.
- **KYC onboarding** (`app/pages/1_KYC.py`): step completion, the progress percentage and the outcome of submitting.
- **The assistant** (`app/components/bc_assistant.py`): keyword classification of a chat message into one of six replies, and the chat history it keeps.

Python's numeric operations are written out on exact reals:

- `int()` truncates toward zero (`Common.Trunc`);
- `np.clip` is `Common.Clip` / `Common.ClipR`;
- `round()` rounds half to even (`Common.RoundHalfEven`);
- `round(x, 2)` rounds to the nearest hundredth (`Common.Round2`);
- `//` with a positive divisor is Dafny's `/`.

The one place where a float NaN changes a result is the income volatility of a ledger with a single inflow month: pandas' sample standard deviation of one value is NaN. That value is modelled as `Scoring.Float = Finite(real) | NaN`. Every comparison with NaN is false, so a NaN volatility is never penalised.

Calendar months are numbered consecutively (`Ledger.Date.month`), so grouping by `to_period("M")` is grouping by that number.

Modules:

| module | file | models |
|---|---|---|
| `Common` | common.dfy | shared numeric helpers, ASCII lower-casing, substring search |
| `Ledger` | ledger.dfy | the transaction row |
| `Scoring` | scoring.dfy | `app/utils/scoring.py` |
| `TransactionData` | data.dfy | `app/utils/data.py` |
| `BankLink` | banklink.dfy | `app/pages/2_BankLink.py` |
| `Microloan` | microloan.dfy | `app/pages/4_Microloan.py` |
| `LenderPortal` | lender_portal.dfy | `app/pages/5_LenderPortal.py` |
| `Dashboard` | dashboard.dfy | `app/pages/3_Dashboard.py` |
| `Kyc` | kyc.dfy | `app/pages/1_KYC.py` |
| `Assistant` | assistant.dfy | `app/components/bc_assistant.py` |

### Behaviour worth noting

- **Overdraft months.** The outflows are reindexed onto the inflow months only (`app/utils/scoring.py:38`). A month with outflow but no inflow is therefore never an overdraft month. `Scoring.OverdraftCount` counts over the inflow months.
- **Declined amount.** The approved amount is `max(0, min(request, max_offer))` whatever the decision (`app/pages/4_Microloan.py:207`). A declined request keeps that amount. Only its interest, total and per-installment amounts are zero. `Microloan.DeclinedKeepsAmount` exhibits a declined request whose approved amount is 30.
- **Top income tier.** The income tiers test `> 3500` before `> 5000` (`app/pages/2_BankLink.py:216-219`). The `+50` branch at line 218 is therefore unreachable. It is modelled as written, and `BankLink.TopIncomeTierUnreachable` states that it is dead.

## Model

| member | source | states |
|---|---|---|
| Common.ClipR | app/pages/2_BankLink.py:252 | `np.clip` on a real: the result lies in `[lo, hi]`; it is the input when the input is in range, otherwise the bound it passed |
| Common.Clip | app/utils/scoring.py:97 | `max(lo, min(hi, x))` on integers: in range, identity inside, the crossed bound outside |
| Common.ClipRMonotone | app/pages/2_BankLink.py:252 | clipping preserves order |
| Common.Trunc | app/pages/2_BankLink.py:268 | Python `int()` of a float: the integer toward zero, within 1 of the input and not farther from zero |
| Common.TruncOfInt | app/pages/2_BankLink.py:252 | `int()` of an integral value is that value |
| Common.TruncMonotone | app/pages/2_BankLink.py:268 | `int()` preserves order |
| Common.TruncBetween | app/pages/5_LenderPortal.py:213 | `int()` of a value between two integers stays between them |
| Common.RoundHalfEven | app/pages/4_Microloan.py:227 | Python `round()`: the nearest integer, and on an exact half the even one |
| Common.Round2 | app/utils/scoring.py:50-52 | `round(x, 2)` is within half a hundredth of `x` |
| Common.NoDupCard | app/utils/scoring.py:28 | a duplicate-free sequence of group keys has as many distinct keys as elements |
| Common.NoDupSubsetLength | app/utils/scoring.py:46 | a duplicate-free sequence whose keys all occur in another duplicate-free one is no longer |
| Common.Lower | app/utils/scoring.py:23-24 | `str.lower` keeps the length and lower-cases each character |
| Common.LowerIdempotent | app/components/bc_assistant.py:25 | lower-casing twice is lower-casing once |
| Common.LowerOfLower | app/utils/scoring.py:23 | text without upper-case letters is unchanged by lower-casing |
| Common.ContainsIff | app/utils/scoring.py:41-43 | the substring test holds exactly when the word occurs at some position |
| Common.ContainsTransitive | app/components/bc_assistant.py:40 | a substring of a substring is a substring |
| Common.ContainsAny | app/utils/scoring.py:41-43 | an alternation regex `(a\|b\|…)` matches exactly when some alternative is a substring |
| Scoring.HasMonthCons | app/utils/scoring.py:27-29 | a month has a selected row in a ledger iff the first row is in it or a later row is |
| Scoring.MonthKey | app/utils/scoring.py:27 | a row's group key is its month exactly when it is selected and dated; NaT rows have no key |
| Scoring.MonthsOf | app/utils/scoring.py:28-29 | the groupby index: no month twice, and exactly the months holding a selected dated row |
| Scoring.Series | app/utils/scoring.py:28-29 | the grouped sum: one entry per month, each the total of that month's selected rows |
| Scoring.MonthTotalAppend | app/utils/scoring.py:28 | a month's total over two ledgers is the sum of the two totals |
| Scoring.FlowTotalAppend | app/utils/scoring.py:33-34 | the flow total over two ledgers is the sum of the two totals |
| Scoring.SeriesSplit | app/utils/scoring.py:28 | the monthly series' sum splits into the first row's share plus the rest |
| Scoring.ShareOutside | app/utils/scoring.py:28 | a row that is unselected, undated or outside the months adds nothing to the series |
| Scoring.ShareInside | app/utils/scoring.py:28 | a selected dated row in one of the months adds exactly its amount |
| Scoring.SeriesOfNothing | app/utils/scoring.py:28 | the empty ledger gives an all-zero series |
| Scoring.MonthlyTotalsAddUp | app/utils/scoring.py:28-34 | the monthly totals add up to the total of the dated selected rows: the groupby neither loses nor doubles an amount |
| Scoring.OverdraftCount | app/utils/scoring.py:38 | the overdraft count is at most the number of inflow months, and zero iff no inflow month's outflow exceeds 1.1 times its inflow |
| Scoring.OverdraftCountAppend | app/utils/scoring.py:38 | the count over two lists of months is the sum of their counts, and one month counts 1 exactly when its outflow exceeds 1.1 times its inflow, so the count is the number of overdraft months |
| Scoring.RemittanceCount | app/utils/scoring.py:41-45 | at most one per row, zero iff no category mentions a remittance keyword |
| Scoring.RemittanceCountAppend | app/utils/scoring.py:41-45 | the count over two ledgers is the sum of their counts, and one row counts 1 exactly when its category mentions a remittance keyword, so the count is the number of remittance rows |
| Scoring.MobileMoneySignal | app/utils/scoring.py:43-47 | true iff some row's category mentions a mobile-money keyword |
| Scoring.AvgInflow | app/utils/scoring.py:31 | the mean monthly inflow equals the dated inflow total over the number of inflow months, 0 without inflow months |
| Scoring.GigMonthsActive | app/utils/scoring.py:42-46 | the number of distinct months among the dated gig rows; never more than the ledger's dated months, and positive iff some dated row is a gig row |
| Scoring.ComputeFeatures | app/utils/scoring.py:4-57 | the empty ledger gives the fixed defaults; otherwise the average inflow is the dated inflow over the inflow months, the volatility is the 1.0 sentinel when there is no inflow month or their mean is 0, the expense ratio is outflow over inflow with the 1.0 sentinel, the overdraft count is the number of overdraft inflow months, the remittance count is the number of remittance rows, the gig months are the distinct months of the dated gig rows, and the count features obey their bounds and zero/non-zero conditions |
| Scoring.IncomeVolatility | app/utils/scoring.py:32 | the 1.0 sentinel when there is no inflow month or their mean is 0; otherwise NaN exactly when there is a single inflow month (sample deviation of one value) |
| Scoring.SingleInflowMonthVolatility | app/utils/scoring.py:32 | with exactly one inflow month of non-zero total the volatility feature is NaN, not the 1.0 sentinel |
| Scoring.BandOf | app/utils/scoring.py:98 | Prime iff score ≥ 86, Green iff 70..85, Amber iff 50..69, Red iff < 50 |
| Scoring.ExpenseRatio | app/utils/scoring.py:33-35 | with positive total inflow the ratio times the inflow is the outflow; otherwise the 1.0 sentinel |
| Scoring.RuleBasedScore | app/utils/scoring.py:59-99 | the score lies in 0..100 and the band is the band of the score |
| Scoring.RawScoreBounds | app/utils/scoring.py:60-97 | the unclamped score always lies in 4..87, so the final clamp never changes it |
| Scoring.OverdraftsNeverHelp | app/utils/scoring.py:83 | more overdraft months never raise the score |
| Scoring.OverdraftPenaltySaturates | app/utils/scoring.py:83 | beyond three overdraft months the score no longer falls |
| Scoring.NaNVolatilityIsUnpenalised | app/utils/scoring.py:69-72 | a NaN volatility takes no penalty, while volatility 1.0 takes the full −10 |
| Scoring.EmptyLedgerScore | app/utils/scoring.py:7-16 | the empty ledger scores 28, band Red |
| TransactionData.IndexOf | app/utils/data.py:35 | `col in df.columns`: absent iff not a column; otherwise the first position holding it |
| TransactionData.AddNullColumn | app/utils/data.py:36 | adding a column appends its name and a null cell to every row, keeping the table rectangular |
| TransactionData.AddMissing | app/utils/data.py:34-36 | afterwards every expected name is a column; the old columns and cells are kept in place; new columns are expected names holding nulls |
| TransactionData.AddMissingOnlyMissing | app/utils/data.py:34-36 | every added column is an expected name that the frame lacked, and no name is added twice |
| TransactionData.Project | app/utils/data.py:37 | `df[expected]` has exactly the four expected columns, in order, each row holding that column's cell |
| TransactionData.NormalizeColumns | app/utils/data.py:32-43 | the result has the expected columns and one typed row per input row, each field parsed from that row's cell of the named column; the caller's frame keeps its columns and gains only expected ones it lacked, each once |
| TransactionData.IndexOfExtended | app/utils/data.py:34-37 | appending columns does not move an existing column, and a new one is found after the old ones |
| TransactionData.IndexAfterAddMissing | app/utils/data.py:34-37 | after the missing columns are added, each expected column is found and holds the original cell, or null |
| TransactionData.ProjectedCells | app/utils/data.py:34-37 | after adding the missing columns and selecting the expected ones, every row has four cells, each that row's cell of the named column |
| TransactionData.ProjectedCell | app/utils/data.py:34-37 | one cell of the selected frame is the row's cell of the named column |
| TransactionData.MissingColumnsAreNull | app/utils/data.py:36-42 | a missing date or amount column yields NaT / NaN in every row, and a missing type or category yields the text "None" |
| TransactionData.BankMonthTotals | app/utils/data.py:15-19 | one bank month has inflow 900 and outflow 630 in that month and nothing elsewhere |
| TransactionData.KindsAreLower | app/utils/data.py:15 | the sample `type` values are already lower-case |
| TransactionData.MobileMonthTotals | app/utils/data.py:27-29 | one mobile-money month has inflow 350 and outflow 200 in that month and nothing elsewhere |
| TransactionData.MonthRowsTotals | app/utils/data.py:12-29 | each sample's single month has its per-month totals in that month only |
| TransactionData.StackTotals | app/utils/data.py:12-13 | stacking n months back from the anchor puts the per-month total in each of the n months and nothing elsewhere |
| TransactionData.StackLength | app/utils/data.py:12 | n stacked months of k rows have k·n rows |
| TransactionData.SampleMonthsTotals | app/utils/data.py:9-30 | a sample over n months has its per-month totals in exactly the n months ending at the anchor |
| TransactionData.BankSampleShape | app/utils/data.py:9-20 | the bank sample has 24 rows, inflow 900 and outflow 630 in each of the six months ending at the anchor |
| TransactionData.MobileSampleShape | app/utils/data.py:22-30 | the mobile-money sample has 18 rows, inflow 350 and outflow 200 in each of the six months |
| TransactionData.StackFlowTotal | app/utils/data.py:12 | n stacked months of equal flow total carry n times it |
| TransactionData.BankMonthFlows | app/utils/data.py:15-19 | a bank month's inflow is 900 and its outflow 630, dated or not |
| TransactionData.BankSampleFlows | app/utils/data.py:9-20 | the bank sample's inflow is 5400 and its outflow 3780 |
| TransactionData.BankSampleExpenseRatio | app/utils/scoring.py:33-35 | the bank sample's expense ratio is 0.7, which earns no expense adjustment |
| BankLink.IncomeEffect | app/pages/2_BankLink.py:211-219 | −80 iff income < 800, −40 iff 800..<1500, 0 iff 1500..3500, +30 iff above 3500 (the +50 tier never applies) |
| BankLink.UtilizationEffect | app/pages/2_BankLink.py:224-230 | −10 iff utilization < 10, +20 iff 10..40, 0 iff 41..80, −40 iff above 80 |
| BankLink.ScoreOf | app/pages/2_BankLink.py:252 | `int(np.clip(raw, 300, 900))`: in 300..900, the integer part of raw inside the range, 300 below it, 900 above |
| BankLink.AiScore | app/pages/2_BankLink.py:209-252 | the AI score of any profile lies in 300..900 |
| BankLink.ScoreOfMonotone | app/pages/2_BankLink.py:252 | a higher raw score never gives a lower AI score |
| BankLink.RiskLevel | app/pages/2_BankLink.py:255-263 | Low iff score ≥ 760, Medium iff 620..759, High iff < 620 |
| BankLink.RecommendedLimit | app/pages/2_BankLink.py:266-268 | the limit is the integer part of 1.5 × income × (score − 300) / 600: at most that product and within 1 of it; so it lies between 0 and 1.5× the monthly income, and is 0 at the minimum score |
| BankLink.TopIncomeTierUnreachable | app/pages/2_BankLink.py:211-219 | the income effect is never +50; every income above 3500 gets +30 |
| BankLink.IncomeEffectMonotone | app/pages/2_BankLink.py:211-219 | a higher income never gets a smaller income effect |
| BankLink.AiScoreMonotoneInIncome | app/pages/2_BankLink.py:211-252 | raising the income never lowers the AI score |
| BankLink.AiScoreAntitoneInMissed | app/pages/2_BankLink.py:233-252 | more missed payments never raise the AI score |
| BankLink.AiScoreAntitoneInVolatility | app/pages/2_BankLink.py:222-252 | more volatility never raises the AI score |
| BankLink.DepthSaturates | app/pages/2_BankLink.py:242-243 | beyond 24 months of history and 5 linked accounts, more of either changes nothing |
| BankLink.RecommendedLimitMonotone | app/pages/2_BankLink.py:266-268 | at a fixed income a higher score never gives a lower limit |
| BankLink.ImprovedScore | app/pages/2_BankLink.py:342-349 | the what-if score lies in 300..900 |
| BankLink.TrendOf | app/pages/2_BankLink.py:358-363 | improvement iff the delta is positive, decrease iff negative, no change iff zero |
| BankLink.Sandbox | app/pages/2_BankLink.py:319-363 | the what-if score is the re-scored improved pattern and lies in range; the what-if limit is the recommended limit at the what-if score; the deltas are the what-if values less the current AI score and limit, and a score that does not fall never lowers the limit; the trend message follows the score's direction |
| BankLink.SandboxAtCurrentValues | app/pages/2_BankLink.py:342-363 | targets equal to the current behaviour reproduce the current score and limit, with no change reported |
| BankLink.SandboxVersusRescore | app/pages/2_BankLink.py:342-347 | the quick re-score equals a full re-score of the changed profile, except that it adds the 25-point bonus in place of the utilization effect's true change |
| BankLink.SandboxAgreesWithinBand | app/pages/2_BankLink.py:342-349 | when the target utilization stays in the same effect band, the quick re-score is the full re-score |
| BankLink.SandboxOverstatesCrossing | app/pages/2_BankLink.py:345-346 | moving utilization from 42 to 35 credits the what-if score with 25 points, 5 more than the full re-score |
| BankLink.BonusOnlyOnCrossing | app/pages/2_BankLink.py:345-346 | the bonus is given iff the current utilization is above 40 and the target at most 40 |
| BankLink.DefaultTargetsNeverLower | app/pages/2_BankLink.py:319-349 | the sliders' default targets never give a lower score than the current one |
| Microloan.FinalScore | app/pages/4_Microloan.py:180-184 | the final score never exceeds the AI score for non-negative volatility, and equals it exactly when volatility is 0 |
| Microloan.DecisionOf | app/pages/4_Microloan.py:177-194 | approved iff the final score ≥ 720, manual review iff 630..<720, declined iff < 630 |
| Microloan.DecisionMonotone | app/pages/4_Microloan.py:186-194 | a higher final score never gives a worse decision |
| Microloan.Apr | app/pages/4_Microloan.py:196-200 | the APR is the larger of 5.9 and the risk-adjusted rate: at least both, and equal to one of them |
| Microloan.AprMonotone | app/pages/4_Microloan.py:196-200 | a lower AI score or a higher volatility never lowers the APR |
| Microloan.MaxOffer | app/pages/4_Microloan.py:203-204 | the maximum offer lies in 30..600, and inside that range is the integer part of the final score less 300 |
| Microloan.MaxOfferMonotone | app/pages/4_Microloan.py:203-204 | a higher final score never lowers the maximum offer |
| Microloan.ApprovedAmount | app/pages/4_Microloan.py:207 | non-negative, at most the request, at most the maximum offer, and equal to one of the two |
| Microloan.Installments | app/pages/4_Microloan.py:220-230 | at least one installment; weekly gives the weeks, bi-weekly half the weeks, monthly a count within half of a quarter of the weeks |
| Microloan.InstallmentsAtMostWeeks | app/pages/4_Microloan.py:220-230 | never more installments than weeks |
| Microloan.MonthlyTiesGoEven | app/pages/4_Microloan.py:227 | a duration of 4k + 2 weeks (k ≥ 1), halfway between two month counts, gets the even count |
| Microloan.MonthlyRoundsHalfToEven | app/pages/4_Microloan.py:227 | monthly installments round half to even: 6 weeks give 2, 10 give 2, 2 give 1 |
| Microloan.Spread | app/pages/4_Microloan.py:232-237 | an active amount spread over n installments multiplies back to the amount; inactive gives 0 |
| Microloan.SimpleInterest | app/pages/4_Microloan.py:210-212 | for every duration, 52 times the interest is the amount times the APR percentage times the weeks; non-negative for non-negative inputs; nothing on a zero amount or duration |
| Microloan.TermsOf | app/pages/4_Microloan.py:177-207 | the decision is that of the final score; the APR, maximum offer and approved amount are those of `Apr`, `MaxOffer` and `ApprovedAmount` on the request and final score, so the APR is at least 5.9, the maximum offer in 30..600, and the approved amount bounded by both the offer and the request, and at least 20 when 20 or more is requested |
| Microloan.Assemble | app/pages/4_Microloan.py:209-237 | an offer built from terms copies them; it is active iff the amount is positive and not declined; an active offer's total is the amount plus simple interest; an inactive one carries no interest or total; every assembled offer is consistent |
| Microloan.Quote | app/pages/4_Microloan.py:177-237 | the offer carries the terms; it is active iff the amount is positive and not declined; the number of payments is `Installments` of the frequency and duration; the final figure is that of the terms; an active offer's interest is the simple interest on the approved amount over the weeks, and its total is principal plus that interest; the offer is consistent (the principal installments multiply back to the approved amount); inactive offers are all zero |
| Microloan.DeclinedKeepsAmount | app/pages/4_Microloan.py:207-217 | a declined request keeps a positive approved amount but no schedule |
| Microloan.Schedule | app/pages/4_Microloan.py:239-261 | one row per installment; row j is numbered j+1, pays at most the installment of principal and the flat interest, totals principal plus interest, and leaves the approved amount less j+1 installments, floored at 0; balances never rise and stay within 0..amount; principal paid plus balance is the approved amount |
| Microloan.OutstandingBounds | app/pages/4_Microloan.py:243-250 | the balance after any number of installments lies between 0 and the approved amount |
| Microloan.OutstandingAntitone | app/pages/4_Microloan.py:243-250 | a later balance is never above an earlier one |
| Microloan.ScheduleClears | app/pages/4_Microloan.py:234-250 | when the installments multiply back to the amount, the last balance is 0 and the principal paid is the whole amount |
| Microloan.ScheduleIdle | app/pages/4_Microloan.py:237-250 | with zero installments every row pays nothing and leaves the whole amount outstanding |
| Microloan.OutstandingStep | app/pages/4_Microloan.py:244-250 | one more installment lowers the balance by the principal paid, never below 0 |
| Microloan.OutstandingAtTerm | app/pages/4_Microloan.py:234-250 | after all installments of an even split the balance is 0 |
| Microloan.OutstandingWithoutPayments | app/pages/4_Microloan.py:237-250 | with zero principal per installment the balance stays the approved amount |
| Microloan.QuoteConsistent | app/pages/4_Microloan.py:220-237 | every quote is internally consistent (payments ≥ 1, installments multiply back) |
| Microloan.RepaymentSchedule | app/pages/4_Microloan.py:239-261 | every row j is numbered j+1, pays at most the offer's principal installment plus the offer's flat interest, and leaves the approved amount less j+1 installments floored at 0; an active offer's schedule repays exactly the approved amount and ends at balance 0; an inactive one pays nothing and leaves the amount outstanding |
| Microloan.ActiveSchedule | app/pages/4_Microloan.py:232-261 | an even split's schedule has one row per installment, row j numbered j+1 and leaving the amount less j+1 installments floored at 0, non-rising non-negative balances, flat interest, ends at 0 and repays exactly the amount |
| Microloan.IdleSchedule | app/pages/4_Microloan.py:237-261 | a schedule with nothing per installment has every row numbered in order, pays no principal or interest and leaves the whole amount outstanding in every row |
| Microloan.Raise | app/pages/4_Microloan.py:326-336 | raising a flag on a test adds exactly that flag when the test holds, and never repeats one |
| Microloan.FlagList | app/pages/4_Microloan.py:326-336 | each of the five flags is present iff its test holds, and none twice |
| Microloan.Flags | app/pages/4_Microloan.py:326-336 | each flag is raised iff its condition holds, and none twice |
| Microloan.ReviewAndApprovalExclusive | app/pages/4_Microloan.py:333-336 | manual review and instant approval are never flagged together |
| Microloan.ApprovalExcludesWeakness | app/pages/4_Microloan.py:329-336 | an instantly approved request is never flagged as a weak AI score |
| LenderPortal.RiskBand | app/pages/5_LenderPortal.py:64-70 | Low iff score ≥ 760, Medium iff 620..759, High iff < 620 |
| LenderPortal.RiskBandIsRiskLevel | app/pages/5_LenderPortal.py:64-70 | the portal's band agrees with the dashboard's risk level for every score |
| LenderPortal.Applicant | app/pages/5_LenderPortal.py:72 | a new roster row carries the band derived from its score |
| LenderPortal.InitialRoster | app/pages/5_LenderPortal.py:10-72 | four applicants, each with the band of its score |
| LenderPortal.CountStatus | app/pages/5_LenderPortal.py:207-210 | a status count never exceeds the roster size |
| LenderPortal.CountStatusAppend | app/pages/5_LenderPortal.py:207-210 | the count over two rosters is the sum of their counts, and one borrower counts 1 exactly when it has that status, so the count is the number of borrowers with the status |
| LenderPortal.ApprovedAndInReviewBounded | app/pages/5_LenderPortal.py:204-210 | approved plus in-review never exceed the total applications |
| LenderPortal.ScoreSumBounds | app/pages/5_LenderPortal.py:213 | the score sum lies between n·lo and n·hi when every score does |
| LenderPortal.QuotientBetween | app/pages/5_LenderPortal.py:213 | a sum within n times two bounds, divided by n, lies within the bounds |
| LenderPortal.AverageScoreWithin | app/pages/5_LenderPortal.py:213 | the average score shown lies between the lowest and highest bounds of the scores |
| LenderPortal.InitialOverview | app/pages/5_LenderPortal.py:204-214 | the initial roster shows 1 approved, 3 in review and an average of 674 |
| LenderPortal.Filter | app/pages/5_LenderPortal.py:258-264 | a borrower is listed iff it is in the roster and meets every criterion |
| LenderPortal.FilterAppend | app/pages/5_LenderPortal.py:258-264 | filtering distributes over concatenation, so the filtered rows keep their roster order |
| LenderPortal.FirstNamed | app/pages/5_LenderPortal.py:316-317 | absent iff no row has the name; otherwise the first row with it |
| LenderPortal.SelectApplicant | app/pages/5_LenderPortal.py:302-317 | nothing is selected iff the filter is empty; otherwise the first roster row named like the chosen filtered applicant |
| LenderPortal.SelectedMatches | app/pages/5_LenderPortal.py:307-317 | with unique names the selected row meets the filter |
| LenderPortal.Recommend | app/pages/5_LenderPortal.py:362-373 | strong approve iff score ≥ 760 and volatility < 40; standard approve iff not that and score ≥ 630 with volatility < 60; decline iff score < 580 |
| LenderPortal.RecommendMonotone | app/pages/5_LenderPortal.py:362-373 | a higher score and lower volatility never weaken the recommendation |
| LenderPortal.ExposureFactor | app/pages/5_LenderPortal.py:397-402 | the factor lies in (0, 1], and is 1 exactly for a Low band |
| LenderPortal.SuggestedLimit | app/pages/5_LenderPortal.py:397-404 | the suggested exposure is the integer part of the request times the band's factor (1.0, 0.7 or 0.4): at most that product and within 1 of it; it lies in 0..requested and is the full request for a Low band |
| LenderPortal.SuggestedLimitByBand | app/pages/5_LenderPortal.py:397-404 | riskier bands never get a larger exposure |
| LenderPortal.Approve | app/pages/5_LenderPortal.py:428-445 | a non-positive amount changes nothing; otherwise only the selected row changes, becoming approved with the amount credited to the chosen channel |
| LenderPortal.DeclineApplication | app/pages/5_LenderPortal.py:447-450 | only the selected row changes, and only its status, to declined |
| LenderPortal.FundsUpdate | app/pages/5_LenderPortal.py:434-436 | replacing one row changes the roster's funds by that row's change |
| LenderPortal.DisbursementConservesFunds | app/pages/5_LenderPortal.py:428-450 | approving adds exactly the disbursed amount to the roster's funds; declining moves none |
| LenderPortal.DecisionsKeepBands | app/pages/5_LenderPortal.py:428-450 | approving or declining keeps every band consistent with its score |
| Dashboard.LowerKeyMap | app/pages/3_Dashboard.py:223 | every column's lower-cased name is a key, and each key maps to a column lower-casing to it |
| Dashboard.LaterColumnWins | app/pages/3_Dashboard.py:223 | among columns with the same lower-cased name the last one is kept |
| Dashboard.Resolve | app/pages/3_Dashboard.py:228-236 | nothing iff no key is present; otherwise the column of the first present key |
| Dashboard.KeyColumn | app/pages/3_Dashboard.py:223-236 | the resolved column is one of the frame's columns whose lower-cased name is a key; there is none exactly when no column's lower-cased name is a key; the key found is the first one in the list that some column lower-cases to, and of the columns lower-casing to it the last wins |
| Dashboard.KeyColumnFacts | app/pages/3_Dashboard.py:223-236 | the scan over the keys finds the earliest listed key present among the lower-cased columns and returns the last column that lower-cases to it |
| Dashboard.ResolvesWhateverCase | app/pages/3_Dashboard.py:223-231 | an "Amount" column in any case is the amount column |
| Dashboard.Parsed | app/pages/3_Dashboard.py:239 | `dropna` keeps exactly the values that parsed, one per parsed cell |
| Dashboard.ParsedKeepsOrder | app/pages/3_Dashboard.py:239 | the parsed values keep their order: cell k's value sits at the position counting the parsed cells before it |
| Dashboard.ParsedLength | app/pages/3_Dashboard.py:247 | the transaction count is the number of cells that parsed |
| Dashboard.SumPositive | app/pages/3_Dashboard.py:241 | total inflow is never negative |
| Dashboard.SumPositiveAppend | app/pages/3_Dashboard.py:241 | the inflow over two lists is the sum of theirs, and one amount contributes itself when positive and 0 otherwise |
| Dashboard.SumNegative | app/pages/3_Dashboard.py:242 | total outflow is never positive |
| Dashboard.SumNegativeAppend | app/pages/3_Dashboard.py:242 | the outflow over two lists is the sum of theirs, and one amount contributes itself when negative and 0 otherwise |
| Dashboard.NetIsInflowPlusOutflow | app/pages/3_Dashboard.py:241-243 | the net flow is total inflow plus total outflow |
| Dashboard.Totals | app/pages/3_Dashboard.py:238-253 | the count is the number of parsed cells; inflow, outflow and net are the sums of the positive, the negative and all parsed amounts; net = inflow + outflow |
| Dashboard.CsvSummary | app/pages/3_Dashboard.py:238-259 | no summary iff no amount key resolves; otherwise the totals of the resolved column |
| Dashboard.SumWithin | app/pages/3_Dashboard.py:210 | a total of balances in `[lo, hi]` lies between n·lo and n·hi |
| Dashboard.AverageBalanceWithin | app/pages/3_Dashboard.py:217 | the average balance lies within the balances' bounds |
| Dashboard.DemoSummary | app/pages/3_Dashboard.py:209-218 | the sandbox accounts total 4850.62 and average between the smallest and largest balance |
| Kyc.CompletedSteps | app/pages/1_KYC.py:220-237 | at most 4 steps; 4 iff all three sections and consent; 0 iff none |
| Kyc.Progress | app/pages/1_KYC.py:239 | progress is 25 per step, one of 0/25/50/75/100, and 100 iff everything is complete |
| Kyc.Submit | app/pages/1_KYC.py:243-251 | no consent gives the consent error; missing name, email, ID or selfie gives the warning; submitted iff consent and all four |
| Kyc.CompleteFormSubmits | app/pages/1_KYC.py:220-251 | a 100% form always submits |
| Kyc.SubmitsBelowFullProgress | app/pages/1_KYC.py:224-251 | a form with a blank phone is at 75% and still submits |
| Assistant.GenerateReply | app/components/bc_assistant.py:23-99 | the lenders reply iff a lender keyword occurs, and each earlier topic iff its keyword occurs and no later topic's does (case-insensitively) |
| Assistant.GeneralIffNoKeyword | app/components/bc_assistant.py:28-99 | the generic reply comes back iff no keyword of any topic occurs |
| Assistant.CaseInsensitive | app/components/bc_assistant.py:25 | a message and its lower-cased form get the same reply |
| Assistant.RedundantKeywords | app/components/bc_assistant.py:40-88 | "ai score", "lender portal" and "why was i declined" add nothing beyond a shorter keyword of the same topic |
| Assistant.SubstringWitness | app/components/bc_assistant.py:40 | an occurrence at a known position makes the substring test true |
| Assistant.EnsureHistory | app/components/bc_assistant.py:7-20 | a missing history starts as the greeting; an existing one is kept |
| Assistant.OnUserInput | app/components/bc_assistant.py:194-204 | empty input changes nothing; otherwise the history is extended by the user's message and the reply to it |
| Assistant.StartIsConversation | app/components/bc_assistant.py:7-20 | the initial history is a well-formed conversation |
| Assistant.OnUserInputKeepsConversation | app/components/bc_assistant.py:194-204 | sending a message keeps the history a greeting followed by message/reply pairs |
| Assistant.ReplayShape | app/components/bc_assistant.py:194-204 | after any inputs the history is a conversation of 1 + 2·(non-empty inputs) messages |

Definitions that carry no contract of their own, and the rows that state their properties:

- `BankLink.BaseScore` (app/pages/2_BankLink.py:209-250) is the sum of the effects above; `BankLink.AiScoreMonotoneInIncome`, `BankLink.AiScoreAntitoneInMissed`, `BankLink.AiScoreAntitoneInVolatility` and `BankLink.DepthSaturates` state how it moves.
- `Scoring.RawScore` (app/utils/scoring.py:60-97) is the unclamped sum of the adjustments; `Scoring.RawScoreBounds` bounds it.
- `TransactionData.TypedRow` (app/utils/data.py:38-42) parses one selected row; `TransactionData.NormalizeColumns` states what each typed field is.
- `Dashboard.AmountColumn` and `Dashboard.DateColumn` (app/pages/3_Dashboard.py:228-236) are `Dashboard.KeyColumn` on the two key lists.
- `BankLink.ImprovedRaw` (app/pages/2_BankLink.py:342-347) is the unclamped what-if score; `BankLink.SandboxVersusRescore` and `BankLink.BonusOnlyOnCrossing` state how it relates to re-scoring and when the utilization bonus applies.
- `BankLink.LimitFor` (app/pages/2_BankLink.py:266-268) is the exact limit before truncation; `BankLink.RecommendedLimit` states that the recommended limit is its floor.
- `BankLink.DefaultTargets` (app/pages/2_BankLink.py:319-338) gives the sliders' starting values; `BankLink.DefaultTargetsNeverLower` states that they never lower the score.
- `LenderPortal.AverageScore` (app/pages/5_LenderPortal.py:213) is the truncated mean score; `LenderPortal.AverageScoreWithin` bounds it and `LenderPortal.InitialOverview` gives its value on the starting roster.
- `Dashboard.AverageBalance` (app/pages/3_Dashboard.py:217) is the total balance over the number of accounts; `Dashboard.AverageBalanceWithin` bounds it.
- `Scoring.SampleStd` (app/utils/scoring.py:32) is pandas' sample standard deviation; `Scoring.IncomeVolatility` and `Scoring.SingleInflowMonthVolatility` state when it is undefined and what the volatility is then.

## Left out

- Rendering: Streamlit widgets, layout, CSS, badges, metrics, charts and messages. Widget values are parameters, and `st.session_state` is explicit state passed in and returned.
- Parsing: `pd.to_datetime` and `pd.to_numeric` with `errors="coerce"` are caller-supplied functions (`parseDate`, `parseAmount`, `parse`). Reading a CSV upload is not modelled.
- Square root: the pandas standard deviation takes its square root from a caller-supplied `root` function.
- Floating point: amounts and scores are exact reals. Binary rounding artefacts are not modelled, except NaN in the income volatility.
- Case folding: `str.lower` is modelled for ASCII letters only.
- NaN cells: a cell pandas read as NaN is the text "nan", which is what `astype(str)` turns it into. Only the `None` that `df[col] = None` inserts is `Cell.Null` (rendered "None"). Reading "nan" as missing is left to the caller-supplied parsers.
- Duplicate column names: a frame with two columns of the same name is looked up by its first occurrence.
- `Timestamp.today()`: the current month is the `anchor` parameter of the sample ledgers.
- Display rounding: `round(x, 2)` and `:,.2f` in display code only are left out.
- `get_transaction_history` (lender portal) returns constant demo rows for display only.
- The lender portal's approval-queue table and CSV download are display only.
- `app/Home.py` is navigation and text only.
- Form fields that no logic reads (profile type, loan purpose, ID type, source of funds, countries seen) are left out.
- LenderPortal.SelectApplicant: the select box offers only the filtered names, so the choice is an index into the filtered list. Its precondition requires that index to be in range.
- LenderPortal.AverageScore: defined only for a non-empty roster. The page always has the four seeded applicants, and `int()` of the mean of an empty column would raise.
- BankLink.Sandbox: requires a non-negative income. The income slider starts at 200, so every income the page can produce meets it. BankLink.RecommendedLimit has the same precondition.
- The assistant's open/closed toggle is display state only.

=== FILE: assistant.dfy ===
/** The rule-based chat assistant (`app/components/bc_assistant.py`):
    keyword classification of a message into one of six fixed replies,
    and the chat history it keeps. */
module Assistant {
  import opened Common

  /** The six fixed replies: the generic explanation and one per topic. */
  datatype Reply = General | AboutScore | AboutLimit | AboutImproving | AboutFlags | AboutLenders

  const ScoreWords: seq<string> := ["score", "ai score"]
  const LimitWords: seq<string> := ["limit", "credit limit", "micro-loan"]
  const ImproveWords: seq<string> := ["improve", "increase", "upgrade"]
  const FlagWords: seq<string> := ["flags", "risk", "why was i declined", "declined"]
  const LenderWords: seq<string> := ["lender", "lender portal", "investor"]

  /** One rule of the chain: when the text matches, its reply replaces
      whatever was chosen so far. */
  function Overwrite(current: Reply, matched: bool, reply: Reply): Reply
  {
    if matched then reply else current
  }

  /** `_bc_generate_reply`: the message is lower-cased, the generic reply
      is chosen, and each topic rule in turn overwrites it when one of its
      keywords occurs. The last matching rule wins. */
  function GenerateReply(message: string): (r: Reply)
    ensures var t := Lower(message);
      && (r == AboutLenders <==> ContainsAny(t, LenderWords))
      && (r == AboutFlags <==> !ContainsAny(t, LenderWords) && ContainsAny(t, FlagWords))
      && (r == AboutImproving <==> !ContainsAny(t, LenderWords) && !ContainsAny(t, FlagWords)
                                   && ContainsAny(t, ImproveWords))
      && (r == AboutLimit <==> !ContainsAny(t, LenderWords) && !ContainsAny(t, FlagWords)
                               && !ContainsAny(t, ImproveWords) && ContainsAny(t, LimitWords))
      && (r == AboutScore <==> !ContainsAny(t, LenderWords) && !ContainsAny(t, FlagWords)
                               && !ContainsAny(t, ImproveWords) && !ContainsAny(t, LimitWords)
                               && ContainsAny(t, ScoreWords))
  {
    var text := Lower(message);
    var r := General;
    var r := Overwrite(r, ContainsAny(text, ScoreWords), AboutScore);
    var r := Overwrite(r, ContainsAny(text, LimitWords), AboutLimit);
    var r := Overwrite(r, ContainsAny(text, ImproveWords), AboutImproving);
    var r := Overwrite(r, ContainsAny(text, FlagWords), AboutFlags);
    Overwrite(r, ContainsAny(text, LenderWords), AboutLenders)
  }

  /** The generic reply comes back exactly when no keyword of any rule
      occurs. */
  lemma GeneralIffNoKeyword(message: string)
    ensures var t := Lower(message);
      GenerateReply(message) == General <==>
        !ContainsAny(t, ScoreWords) && !ContainsAny(t, LimitWords) && !ContainsAny(t, ImproveWords)
        && !ContainsAny(t, FlagWords) && !ContainsAny(t, LenderWords)
  {
  }

  /** Matching ignores case: a message and its lower-cased form get the
      same reply. */
  lemma CaseInsensitive(message: string)
    ensures GenerateReply(Lower(message)) == GenerateReply(message)
  {
    LowerIdempotent(message);
  }

  /** The longer keywords add nothing: "ai score", "lender portal" and
      "why was i declined" each contain a shorter keyword of the same rule. */
  lemma {:induction false} RedundantKeywords(t: string)
    ensures ContainsAny(t, ScoreWords) <==> Contains(t, "score")
    ensures ContainsAny(t, LenderWords) <==> Contains(t, "lender") || Contains(t, "investor")
    ensures ContainsAny(t, FlagWords) <==> Contains(t, "flags") || Contains(t, "risk") || Contains(t, "declined")
  {
    assert ScoreWords[0] == "score" && ScoreWords[1] == "ai score";
    assert LenderWords[0] == "lender" && LenderWords[1] == "lender portal" && LenderWords[2] == "investor";
    assert FlagWords[0] == "flags" && FlagWords[1] == "risk" && FlagWords[2] == "why was i declined" && FlagWords[3] == "declined";
    SubstringWitness("ai score", "score", 3);
    SubstringWitness("lender portal", "lender", 0);
    SubstringWitness("why was i declined", "declined", 10);
    if Contains(t, "ai score") {
      ContainsTransitive(t, "ai score", "score");
    }
    if Contains(t, "lender portal") {
      ContainsTransitive(t, "lender portal", "lender");
    }
    if Contains(t, "why was i declined") {
      ContainsTransitive(t, "why was i declined", "declined");
    }
  }

  /** An occurrence at a known position is an occurrence. */
  lemma SubstringWitness(s: string, w: string, i: nat)
    requires i + |w| <= |s|
    requires forall k :: 0 <= k < |w| ==> s[i + k] == w[k]
    ensures Contains(s, w)
  {
    assert s[i..i + |w|] == w;
    assert OccursAt(s, w, i);
    ContainsIff(s, w);
  }

  // ---------------------------------------------------------------
  // Chat history
  // ---------------------------------------------------------------

  /** What an assistant message says: the greeting or one of the replies. */
  datatype Said = Greeting | Answer(reply: Reply)

  datatype Message = FromUser(text: string) | FromAssistant(said: Said)

  /** `_init_assistant_state`: a missing history starts as the greeting
      alone; an existing one is kept. */
  function EnsureHistory(h: Option<seq<Message>>): (r: seq<Message>)
    ensures h.None? ==> r == [FromAssistant(Greeting)]
    ensures h.Some? ==> r == h.value
  {
    h.GetOr([FromAssistant(Greeting)])
  }

  /** Sending a message: a non-empty input appends the user's message and
      then the assistant's reply to it; an empty input changes nothing. */
  function OnUserInput(h: seq<Message>, input: string): (r: seq<Message>)
    ensures |input| == 0 ==> r == h
    ensures |input| > 0 ==> |r| == |h| + 2 && r[..|h|] == h
    ensures |input| > 0 ==> r[|h|] == FromUser(input) && r[|h| + 1] == FromAssistant(Answer(GenerateReply(input)))
  {
    if |input| == 0 then h
    else h + [FromUser(input), FromAssistant(Answer(GenerateReply(input)))]
  }

  /** A history as the assistant builds it: the greeting, then pairs of a
      user message and the reply to exactly that message. */
  predicate Conversation(h: seq<Message>)
  {
    && |h| % 2 == 1
    && h[0] == FromAssistant(Greeting)
    && forall k :: 0 <= k < |h| / 2 ==>
         h[2 * k + 1].FromUser? && h[2 * k + 2] == FromAssistant(Answer(GenerateReply(h[2 * k + 1].text)))
  }

  lemma StartIsConversation()
    ensures Conversation(EnsureHistory(None))
  {
  }

  /** Sending a message keeps a history a conversation. */
  lemma OnUserInputKeepsConversation(h: seq<Message>, input: string)
    requires Conversation(h)
    ensures Conversation(OnUserInput(h, input))
  {
    if |input| > 0 {
      var r := OnUserInput(h, input);
      forall k | 0 <= k < |r| / 2
        ensures r[2 * k + 1].FromUser? && r[2 * k + 2] == FromAssistant(Answer(GenerateReply(r[2 * k + 1].text)))
      {
        if k < |h| / 2 {
          assert r[2 * k + 1] == h[2 * k + 1] && r[2 * k + 2] == h[2 * k + 2];
        }
      }
    }
  }

  /** The history after a sequence of inputs, starting from nothing. */
  function Replay(inputs: seq<string>): seq<Message>
  {
    if |inputs| == 0 then EnsureHistory(None)
    else OnUserInput(Replay(inputs[..|inputs| - 1]), inputs[|inputs| - 1])
  }

  function NonEmpty(inputs: seq<string>): nat
  {
    if |inputs| == 0 then 0
    else NonEmpty(inputs[..|inputs| - 1]) + (if |inputs[|inputs| - 1]| > 0 then 1 else 0)
  }

  /** After any inputs the history is a conversation holding the greeting
      and two messages per non-empty input. */
  lemma {:induction false} ReplayShape(inputs: seq<string>)
    ensures Conversation(Replay(inputs))
    ensures |Replay(inputs)| == 1 + 2 * NonEmpty(inputs)
  {
    if |inputs| == 0 {
      StartIsConversation();
    } else {
      ReplayShape(inputs[..|inputs| - 1]);
      OnUserInputKeepsConversation(Replay(inputs[..|inputs| - 1]), inputs[|inputs| - 1]);
    }
  }
}

=== FILE: banklink.dfy ===
/** The parameter-driven credit score of the BankLink page
    (`app/pages/2_BankLink.py`): a 300–900 score built from additive
    effects, its risk level, the suggested credit limit and the what-if
    sandbox that re-scores an improved behaviour pattern. */
module BankLink {
  import opened Common

  /** A three-level risk scale: the jurisdiction risk the user picks and
      the risk level derived from the score. */
  datatype Risk = Low | Medium | High

  /** The KYC status selector. */
  datatype Kyc = NotStarted | InReview | Verified

  /** The page's inputs. The widgets bound them (income 200..8000 in steps
      of 100, volatility, utilization 0..100, missed payments 0..10,
      months of history 0..60, accounts 0..10); the rules below hold for
      any values unless a property says so. */
  datatype Profile = Profile(
    income: int,
    volatility: int,
    utilization: int,
    missed: int,
    country: Risk,
    months: int,
    accounts: int,
    kyc: Kyc)

  // ---------------------------------------------------------------
  // Additive effects
  // ---------------------------------------------------------------

  /** The income tiers, checked in the order the page checks them. The
      `> 5000` branch follows the `> 3500` one and so never fires. */
  function IncomeEffect(income: int): (r: int)
    ensures r == -80 <==> income < 800
    ensures r == -40 <==> 800 <= income < 1500
    ensures r == 0 <==> 1500 <= income <= 3500
    ensures r == 30 <==> income > 3500
  {
    if income < 800 then -80
    else if income < 1500 then -40
    else if income > 3500 then 30
    else if income > 5000 then 50
    else 0
  }

  /** The utilization sweet spot: 10..40 inclusive earns 20, under 10
      costs 10, over 80 costs 40, and 41..80 is neutral. */
  function UtilizationEffect(u: int): (r: int)
    ensures r == -10 <==> u < 10
    ensures r == 20 <==> 10 <= u <= 40
    ensures r == 0 <==> 40 < u <= 80
    ensures r == -40 <==> u > 80
  {
    if u < 10 then -10
    else if 10 <= u <= 40 then 20
    else if u > 80 then -40
    else 0
  }

  function CountryEffect(c: Risk): int
  {
    match c
    case Low => 20
    case Medium => 0
    case High => -30
  }

  function KycEffect(k: Kyc): int
  {
    match k
    case Verified => 20
    case InReview => 5
    case NotStarted => 0
  }

  /** Data depth: 0.8 per month of history up to 24 and 4 per linked
      account up to 5. */
  function DepthEffect(months: int, accounts: int): real
  {
    Min(months, 24) as real * 0.8 + Min(accounts, 5) as real * 4.0
  }

  /** `base_score` before the clamp. */
  function BaseScore(p: Profile): real
  {
    650.0 + IncomeEffect(p.income) as real
    - p.volatility as real * 0.6
    + UtilizationEffect(p.utilization) as real
    - p.missed as real * 25.0
    + CountryEffect(p.country) as real
    + DepthEffect(p.months, p.accounts)
    + KycEffect(p.kyc) as real
  }

  /** `int(np.clip(base_score, 300, 900))`. */
  function ScoreOf(raw: real): (s: int)
    ensures 300 <= s <= 900
    ensures 300.0 <= raw <= 900.0 ==> s as real <= raw < s as real + 1.0
    ensures raw <= 300.0 ==> s == 300
    ensures 900.0 <= raw ==> s == 900
  {
    var c := ClipR(raw, 300.0, 900.0);
    TruncBetween(c, 300, 900);
    Trunc(c)
  }

  /** `ai_score`. */
  function AiScore(p: Profile): (s: int)
    ensures 300 <= s <= 900
  {
    ScoreOf(BaseScore(p))
  }

  /** A larger raw score never gives a smaller clamped score. */
  lemma ScoreOfMonotone(x: real, y: real)
    requires x <= y
    ensures ScoreOf(x) <= ScoreOf(y)
  {
    ClipRMonotone(x, y, 300.0, 900.0);
    TruncMonotone(ClipR(x, 300.0, 900.0), ClipR(y, 300.0, 900.0));
  }

  /** The risk bucket of a score. */
  function RiskLevel(score: int): (r: Risk)
    ensures r == Low <==> score >= 760
    ensures r == Medium <==> 620 <= score < 760
    ensures r == High <==> score < 620
  {
    if score >= 760 then Low else if score >= 620 then Medium else High
  }

  /** `int(monthly_income * 1.5 * ((score - 300) / 600))`. */
  function LimitFor(income: int, score: int): real
  {
    income as real * 1.5 * ((score - 300) as real / 600.0)
  }

  function RecommendedLimit(income: int, score: int): (l: int)
    requires 0 <= income && 300 <= score <= 900
    ensures 0 <= l
    ensures l as real <= income as real * 1.5
    ensures score == 300 ==> l == 0
    ensures l as real <= LimitFor(income, score) < l as real + 1.0
  {
    var x := LimitFor(income, score);
    assert 0.0 <= (score - 300) as real / 600.0 <= 1.0;
    assert x <= income as real * 1.5;
    TruncMonotone(x, income as real * 1.5);
    Trunc(x)
  }

  // ---------------------------------------------------------------
  // Properties of the score
  // ---------------------------------------------------------------

  /** Every income above 3500 earns the same +30: the +50 tier is never
      reached, so 5000 and 8000 are treated alike. */
  lemma TopIncomeTierUnreachable(income: int)
    ensures IncomeEffect(income) != 50
    ensures income > 3500 ==> IncomeEffect(income) == 30
  {
  }

  lemma IncomeEffectMonotone(a: int, b: int)
    requires a <= b
    ensures IncomeEffect(a) <= IncomeEffect(b)
  {
  }

  /** With everything else fixed, a higher income never lowers the score. */
  lemma AiScoreMonotoneInIncome(p: Profile, income: int)
    requires p.income <= income
    ensures AiScore(p) <= AiScore(p.(income := income))
  {
    IncomeEffectMonotone(p.income, income);
    ScoreOfMonotone(BaseScore(p), BaseScore(p.(income := income)));
  }

  /** With everything else fixed, more missed payments never raise the score. */
  lemma AiScoreAntitoneInMissed(p: Profile, missed: int)
    requires p.missed <= missed
    ensures AiScore(p.(missed := missed)) <= AiScore(p)
  {
    ScoreOfMonotone(BaseScore(p.(missed := missed)), BaseScore(p));
  }

  /** With everything else fixed, higher volatility never raises the score. */
  lemma AiScoreAntitoneInVolatility(p: Profile, volatility: int)
    requires p.volatility <= volatility
    ensures AiScore(p.(volatility := volatility)) <= AiScore(p)
  {
    ScoreOfMonotone(BaseScore(p.(volatility := volatility)), BaseScore(p));
  }

  /** History beyond 24 months and accounts beyond 5 add nothing. */
  lemma DepthSaturates(p: Profile, months: int, accounts: int)
    requires 24 <= p.months && 24 <= months
    requires 5 <= p.accounts && 5 <= accounts
    ensures AiScore(p.(months := months, accounts := accounts)) == AiScore(p)
  {
    assert DepthEffect(months, accounts) == DepthEffect(p.months, p.accounts);
  }

  /** A higher score never lowers the suggested limit. */
  lemma RecommendedLimitMonotone(income: int, s: int, t: int)
    requires 0 <= income && 300 <= s <= t <= 900
    ensures RecommendedLimit(income, s) <= RecommendedLimit(income, t)
  {
    assert (s - 300) as real / 600.0 <= (t - 300) as real / 600.0;
    assert LimitFor(income, s) <= LimitFor(income, t);
    TruncMonotone(LimitFor(income, s), LimitFor(income, t));
  }

  // ---------------------------------------------------------------
  // Scenario sandbox
  // ---------------------------------------------------------------

  /** The what-if targets picked on the sandbox sliders. */
  datatype Targets = Targets(utilization: int, volatility: int, missed: int)

  /** The sliders' starting values: utilization pulled into 5..35,
      volatility capped at 25, no missed payments. */
  function DefaultTargets(p: Profile): Targets
  {
    Targets(Max(5, Min(p.utilization, 35)), Max(0, Min(p.volatility, 25)), 0)
  }

  /** The current values themselves, as targets. */
  function CurrentTargets(p: Profile): Targets
  {
    Targets(p.utilization, p.volatility, p.missed)
  }

  /** Utilization moves from above 40 to 40 or below. */
  predicate CrossesForty(p: Profile, t: Targets)
  {
    t.utilization <= 40 && p.utilization > 40
  }

  /** `improved_score` before the clamp: the unclamped base score with the
      volatility and missed-payment penalties re-applied at the targets and
      a flat +25 for bringing utilization down to 40 or below. */
  function ImprovedRaw(p: Profile, t: Targets): real
  {
    BaseScore(p)
    + (p.volatility - t.volatility) as real * 0.6
    + (if CrossesForty(p, t) then 25.0 else 0.0)
    + (p.missed - t.missed) as real * 25.0
  }

  function ImprovedScore(p: Profile, t: Targets): (s: int)
    ensures 300 <= s <= 900
  {
    ScoreOf(ImprovedRaw(p, t))
  }

  /** Whether a delta is shown as an improvement, a decrease or no change. */
  datatype Trend = Improvement | Decrease | NoChange

  function TrendOf(delta: int): (r: Trend)
    ensures r == Improvement <==> delta > 0
    ensures r == Decrease <==> delta < 0
    ensures r == NoChange <==> delta == 0
  {
    if delta > 0 then Improvement else if delta < 0 then Decrease else NoChange
  }

  /** What the sandbox reports. */
  datatype WhatIf = WhatIf(score: int, limit: int, scoreDelta: int, limitDelta: int, trend: Trend)

  function Sandbox(p: Profile, t: Targets): (w: WhatIf)
    requires 0 <= p.income
    ensures w.score == ImprovedScore(p, t) && 300 <= w.score <= 900
    ensures w.scoreDelta == w.score - AiScore(p)
    ensures w.limitDelta == w.limit - RecommendedLimit(p.income, AiScore(p))
    ensures w.trend == Improvement <==> w.score > AiScore(p)
    ensures w.trend == Decrease <==> w.score < AiScore(p)
    ensures 0 <= w.limit && w.limit as real <= p.income as real * 1.5
    ensures w.limit == RecommendedLimit(p.income, w.score)
    ensures w.scoreDelta >= 0 ==> w.limitDelta >= 0
  {
    var score := ImprovedScore(p, t);
    var limit := RecommendedLimit(p.income, score);
    var delta := score - AiScore(p);
    assert delta >= 0 ==> RecommendedLimit(p.income, AiScore(p)) <= limit by {
      if delta >= 0 {
        RecommendedLimitMonotone(p.income, AiScore(p), score);
      }
    }
    WhatIf(score, limit, delta, limit - RecommendedLimit(p.income, AiScore(p)), TrendOf(delta))
  }

  /** Leaving every target at its current value reproduces the score and
      limit: both deltas are zero. */
  lemma SandboxAtCurrentValues(p: Profile)
    requires 0 <= p.income
    ensures Sandbox(p, CurrentTargets(p)).score == AiScore(p)
    ensures Sandbox(p, CurrentTargets(p)).scoreDelta == 0
    ensures Sandbox(p, CurrentTargets(p)).limitDelta == 0
    ensures Sandbox(p, CurrentTargets(p)).trend == NoChange
  {
    assert ImprovedRaw(p, CurrentTargets(p)) == BaseScore(p);
  }

  /** The profile as it would be with the targets adopted. */
  function Retarget(p: Profile, t: Targets): Profile
  {
    p.(utilization := t.utilization, volatility := t.volatility, missed := t.missed)
  }

  /** The sandbox against a full re-score of the retargeted profile: it
      differs by the utilization effect it fails to re-evaluate, plus the
      flat bonus when utilization crosses down through 40. */
  lemma SandboxVersusRescore(p: Profile, t: Targets)
    ensures ImprovedRaw(p, t)
            == BaseScore(Retarget(p, t))
               + (UtilizationEffect(p.utilization) - UtilizationEffect(t.utilization)) as real
               + (if CrossesForty(p, t) then 25.0 else 0.0)
  {
  }

  /** When utilization stays in the same band the sandbox agrees with a
      full re-score. */
  lemma SandboxAgreesWithinBand(p: Profile, t: Targets)
    requires UtilizationEffect(p.utilization) == UtilizationEffect(t.utilization)
    ensures ImprovedScore(p, t) == AiScore(Retarget(p, t))
  {
    SandboxVersusRescore(p, t);
    assert !CrossesForty(p, t);
  }

  /** Moving utilization from 42 to 35 earns the flat +25 in the sandbox
      while a full re-score would add 20; the sandbox overstates the gain
      by 5 points before the clamp. */
  lemma SandboxOverstatesCrossing(p: Profile)
    requires p.utilization == 42
    ensures ImprovedRaw(p, CurrentTargets(p).(utilization := 35))
            == BaseScore(Retarget(p, CurrentTargets(p).(utilization := 35))) + 5.0
  {
    SandboxVersusRescore(p, CurrentTargets(p).(utilization := 35));
  }

  /** The +25 bonus is earned only by crossing from above 40 to 40 or below:
      whatever else the targets change, the sandbox without crossing is
      the score with the volatility and missed-payment penalties replaced. */
  lemma BonusOnlyOnCrossing(p: Profile, t: Targets)
    ensures CrossesForty(p, t) <==>
      ImprovedRaw(p, t) == BaseScore(p.(volatility := t.volatility, missed := t.missed)) + 25.0
  {
  }

  /** The default targets never lower the score, for any in-range profile. */
  lemma DefaultTargetsNeverLower(p: Profile)
    requires 0 <= p.volatility && 0 <= p.missed
    ensures AiScore(p) <= ImprovedScore(p, DefaultTargets(p))
  {
    var t := DefaultTargets(p);
    assert t.volatility <= p.volatility;
    assert BaseScore(p) <= ImprovedRaw(p, t);
    ScoreOfMonotone(BaseScore(p), ImprovedRaw(p, t));
  }
}

=== FILE: common.dfy ===
/** Numeric and textual helpers shared by every page of the demo: the
    optional value used for pandas nulls, Python's `int()` and
    `round()` on exact reals, `np.clip`, ASCII lower-casing and
    substring search (`str.contains` with a fixed alternation). */
module Common {

  /** A value that may be missing (a pandas null, an unmatched lookup). */
  datatype Option<+T> = None | Some(value: T) {

    /** The value, or `default` when missing (pandas `fillna`). */
    function GetOr(default: T): T {
      match this
      case Some(v) => v
      case None => default
    }
  }

  function Min(a: int, b: int): int { if a <= b then a else b }

  function Max(a: int, b: int): int { if a >= b then a else b }

  function MinR(a: real, b: real): real { if a <= b then a else b }

  function MaxR(a: real, b: real): real { if a >= b then a else b }

  /** `np.clip` on a real. */
  function ClipR(x: real, lo: real, hi: real): (r: real)
    requires lo <= hi
    ensures lo <= r <= hi
    ensures lo <= x <= hi ==> r == x
    ensures x < lo ==> r == lo
    ensures hi < x ==> r == hi
  {
    if x < lo then lo else if x > hi then hi else x
  }

  /** `np.clip` on an integer. */
  function Clip(x: int, lo: int, hi: int): (r: int)
    requires lo <= hi
    ensures lo <= r <= hi
    ensures lo <= x <= hi ==> r == x
    ensures x < lo ==> r == lo
    ensures hi < x ==> r == hi
  {
    if x < lo then lo else if x > hi then hi else x
  }

  lemma ClipRMonotone(x: real, y: real, lo: real, hi: real)
    requires lo <= hi && x <= y
    ensures ClipR(x, lo, hi) <= ClipR(y, lo, hi)
  {
  }

  /** Python's `int()` on a float: the integer part, truncated toward zero. */
  function Trunc(x: real): (n: int)
    ensures 0.0 <= x ==> 0 <= n && n as real <= x < n as real + 1.0
    ensures x < 0.0 ==> n <= 0 && n as real - 1.0 < x <= n as real
  {
    if x >= 0.0 then x.Floor else -((-x).Floor)
  }

  lemma TruncOfInt(n: int)
    ensures Trunc(n as real) == n
  {
  }

  lemma TruncMonotone(x: real, y: real)
    requires x <= y
    ensures Trunc(x) <= Trunc(y)
  {
    if 0.0 <= x {
      assert x.Floor <= y.Floor;
    } else if y < 0.0 {
      assert (-y).Floor <= (-x).Floor;
    }
  }

  /** Truncating a real that lies between two integers stays between them. */
  lemma TruncBetween(x: real, lo: int, hi: int)
    requires lo as real <= x <= hi as real
    ensures lo <= Trunc(x) <= hi
  {
    TruncMonotone(lo as real, x);
    TruncMonotone(x, hi as real);
    TruncOfInt(lo);
    TruncOfInt(hi);
  }

  /** Python's `round(x)` with no digits: nearest integer, ties to even. */
  function RoundHalfEven(x: real): (n: int)
    ensures n as real - 0.5 <= x <= n as real + 0.5
    ensures (x - n as real == 0.5 || n as real - x == 0.5) ==> n % 2 == 0
  {
    var f := x.Floor;
    var d := x - f as real;
    if d < 0.5 then f
    else if d > 0.5 then f + 1
    else if f % 2 == 0 then f
    else f + 1
  }

  /** Python's `round(x, 2)` on an exact real: the nearest hundredth, ties to even. */
  function Round2(x: real): (r: real)
    ensures x - 0.005 <= r <= x + 0.005
  {
    RoundHalfEven(x * 100.0) as real / 100.0
  }

  function SumR(xs: seq<real>): real
  {
    if |xs| == 0 then 0.0 else xs[0] + SumR(xs[1..])
  }

  /** No element occurs twice. */
  predicate NoDup<T(==)>(xs: seq<T>)
  {
    forall i, j :: 0 <= i < j < |xs| ==> xs[i] != xs[j]
  }

  lemma {:induction false} NoDupCard<T>(xs: seq<T>)
    requires NoDup(xs)
    ensures |set x | x in xs| == |xs|
  {
    if |xs| > 0 {
      var rest := xs[1..];
      NoDupCard(rest);
      assert (set x | x in xs) == (set x | x in rest) + {xs[0]};
      assert xs[0] !in rest;
    } else {
      assert (set x | x in xs) == {};
    }
  }

  /** A duplicate-free sequence whose elements all occur in another
      duplicate-free sequence is no longer than it. */
  lemma NoDupSubsetLength<T>(a: seq<T>, b: seq<T>)
    requires NoDup(a) && NoDup(b)
    requires forall x :: x in a ==> x in b
    ensures |a| <= |b|
  {
    NoDupCard(a);
    NoDupCard(b);
    var sa, sb := set x | x in a, set x | x in b;
    assert sb == sa + (sb - sa);
  }

  // ---------------------------------------------------------------
  // Text
  // ---------------------------------------------------------------

  /** Python's `str.lower` restricted to ASCII letters. */
  function LowerChar(c: char): char
  {
    if 'A' <= c <= 'Z' then (c as int + 32) as char else c
  }

  function Lower(s: string): (r: string)
    ensures |r| == |s|
    ensures forall i :: 0 <= i < |s| ==> r[i] == LowerChar(s[i])
  {
    if |s| == 0 then "" else [LowerChar(s[0])] + Lower(s[1..])
  }

  lemma LowerIdempotent(s: string)
    ensures Lower(Lower(s)) == Lower(s)
  {
  }

  /** Lower-casing text that has no upper-case ASCII letters changes nothing. */
  lemma LowerOfLower(s: string)
    requires forall i :: 0 <= i < |s| ==> !('A' <= s[i] <= 'Z')
    ensures Lower(s) == s
  {
  }

  /** `w` occurs in `s` at position `i`. */
  predicate OccursAt(s: string, w: string, i: int)
  {
    0 <= i && i + |w| <= |s| && s[i..i + |w|] == w
  }

  /** `w in s` / `str.contains(w)`: `w` occurs somewhere in `s`. */
  function Contains(s: string, w: string): bool
    decreases |s|
  {
    if |s| < |w| then false
    else s[..|w|] == w || Contains(s[1..], w)
  }

  lemma {:induction false} ContainsIff(s: string, w: string)
    ensures Contains(s, w) <==> exists i :: OccursAt(s, w, i)
    decreases |s|
  {
    if |s| < |w| {
      forall i | OccursAt(s, w, i) ensures false { }
    } else if s[..|w|] == w {
      assert OccursAt(s, w, 0);
    } else {
      ContainsIff(s[1..], w);
      if Contains(s[1..], w) {
        var i :| OccursAt(s[1..], w, i);
        assert s[1..][i..i + |w|] == s[i + 1..i + 1 + |w|];
        assert OccursAt(s, w, i + 1);
      } else {
        forall i | OccursAt(s, w, i) ensures false {
          if i > 0 {
            assert s[1..][i - 1..i - 1 + |w|] == s[i..i + |w|];
            assert OccursAt(s[1..], w, i - 1);
          }
        }
      }
    }
  }

  /** Containment is transitive: text containing `u` contains every
      substring of `u`. */
  lemma ContainsTransitive(s: string, u: string, w: string)
    requires Contains(s, u) && Contains(u, w)
    ensures Contains(s, w)
  {
    ContainsIff(s, u);
    ContainsIff(u, w);
    var i :| OccursAt(s, u, i);
    var j :| OccursAt(u, w, j);
    forall k | 0 <= k < |w|
      ensures s[i + j + k] == w[k]
    {
      assert s[i..i + |u|][j + k] == u[j + k];
      assert u[j..j + |w|][k] == w[k];
    }
    assert s[i + j..i + j + |w|] == w;
    assert OccursAt(s, w, i + j);
    ContainsIff(s, w);
  }

  /** Some keyword of `ws` occurs in `s` (a regex alternation `(a|b|c)`). */
  function ContainsAny(s: string, ws: seq<string>): (b: bool)
    ensures b <==> exists k :: 0 <= k < |ws| && Contains(s, ws[k])
  {
    if |ws| == 0 then false else Contains(s, ws[0]) || ContainsAny(s, ws[1..])
  }
}

=== FILE: dashboard.dfy ===
/** The account summary of the dashboard page (`app/pages/3_Dashboard.py`):
    case-insensitive resolution of the amount and date columns of an
    uploaded CSV, the cash-flow totals over the parsed amounts, and the
    average balance of the sandbox accounts. */
module Dashboard {
  import opened Common

  // ---------------------------------------------------------------
  // Column resolution
  // ---------------------------------------------------------------

  /** `{c.lower(): c for c in columns}`: each lower-cased name maps to the
      last column that lower-cases to it. */
  function LowerKeyMap(cols: seq<string>): (m: map<string, string>)
    ensures KeysCovered(cols, m)
    ensures forall k :: k in m ==> exists i :: 0 <= i < |cols| && Lower(cols[i]) == k && m[k] == cols[i]
  {
    if |cols| == 0 then map[]
    else
      var init := cols[..|cols| - 1];
      var last := cols[|cols| - 1];
      assert cols == init + [last];
      UpdateKeepsKeys(init, last, LowerKeyMap(init));
      LowerKeyMap(init)[Lower(last) := last]
  }

  /** Every column's lower-cased name is a key of `m`. */
  predicate KeysCovered(cols: seq<string>, m: map<string, string>)
  {
    forall i :: 0 <= i < |cols| ==> Lower(cols[i]) in m
  }

  /** Adding one more column to the map keeps both facts `LowerKeyMap` promises. */
  lemma UpdateKeepsKeys(init: seq<string>, last: string, prev: map<string, string>)
    requires KeysCovered(init, prev)
    requires forall k :: k in prev ==> exists i :: 0 <= i < |init| && Lower(init[i]) == k && prev[k] == init[i]
    ensures KeysCovered(init + [last], prev[Lower(last) := last])
    ensures var cols, m := init + [last], prev[Lower(last) := last];
      forall k :: k in m ==> exists i :: 0 <= i < |cols| && Lower(cols[i]) == k && m[k] == cols[i]
  {
    var cols, m := init + [last], prev[Lower(last) := last];
    assert forall i :: 0 <= i < |init| ==> cols[i] == init[i];
    assert cols[|init|] == last;
    forall k | k in m
      ensures exists i :: 0 <= i < |cols| && Lower(cols[i]) == k && m[k] == cols[i]
    {
      if k == Lower(last) {
        assert Lower(cols[|init|]) == k && m[k] == cols[|init|];
      } else {
        var i :| 0 <= i < |init| && Lower(init[i]) == k && prev[k] == init[i];
        assert Lower(cols[i]) == k && m[k] == cols[i];
      }
    }
  }

  /** The last column that lower-cases to a key is the one the map keeps. */
  lemma {:induction false} LaterColumnWins(cols: seq<string>, i: nat)
    requires i < |cols|
    requires forall j :: i < j < |cols| ==> Lower(cols[j]) != Lower(cols[i])
    ensures LowerKeyMap(cols)[Lower(cols[i])] == cols[i]
  {
    if i < |cols| - 1 {
      var init := cols[..|cols| - 1];
      assert forall j :: i < j < |init| ==> init[j] == cols[j];
      LaterColumnWins(init, i);
    }
  }

  const AmountKeys: seq<string> := ["amount", "amt", "transaction_amount"]
  const DateKeys: seq<string> := ["date", "transaction_date", "posted_date"]

  /** The loop `for key in keys: if key in cols_lower: ...; break`: the
      column of the first key present. */
  function Resolve(m: map<string, string>, keys: seq<string>): (r: Option<string>)
    ensures r.None? <==> forall i :: 0 <= i < |keys| ==> keys[i] !in m
    ensures r.Some? ==> exists i :: 0 <= i < |keys| && keys[i] in m && r.value == m[keys[i]]
                          && forall j :: 0 <= j < i ==> keys[j] !in m
  {
    if |keys| == 0 then None
    else if keys[0] in m then Some(m[keys[0]])
    else
      var r := Resolve(m, keys[1..]);
      assert forall i :: 0 <= i < |keys| - 1 ==> keys[1..][i] == keys[i + 1];
      r
  }

  /** The amount column and the date column of an upload. */
  /** The last column whose lower-cased name is `k`, given one such
      column `c0`. */
  function LastWith(cols: seq<string>, k: string, c0: nat): (c: nat)
    requires c0 < |cols| && Lower(cols[c0]) == k
    ensures c0 <= c < |cols| && Lower(cols[c]) == k
    ensures forall d :: c < d < |cols| ==> Lower(cols[d]) != k
  {
    if Lower(cols[|cols| - 1]) == k then |cols| - 1
    else LastWith(cols[..|cols| - 1], k, c0)
  }

  /** The column the summary reads for a key list: one of the frame's
      columns whose lower-cased name is a key, and none exactly when no
      column's lower-cased name is. The key listed first wins, and among
      columns of the same lower-cased name the last one wins. */
  function KeyColumn(cols: seq<string>, keys: seq<string>): (r: Option<string>)
    ensures r.Some? ==> r.value in cols && Lower(r.value) in keys
    ensures r.None? <==> forall i :: 0 <= i < |cols| ==> Lower(cols[i]) !in keys
    ensures r.Some? ==> KeyFirst(cols, keys, Lower(r.value))
    ensures r.Some? ==> LastNamed(cols, r.value)
  {
    var m := LowerKeyMap(cols);
    var r := Resolve(m, keys);
    KeyColumnFacts(cols, keys);
    r
  }

  /** `k` is a key and no column's lower-cased name is an earlier key. */
  predicate KeyFirst(cols: seq<string>, keys: seq<string>, k: string)
  {
    exists i :: 0 <= i < |keys| && keys[i] == k
      && (forall j, c :: 0 <= j < i && 0 <= c < |cols| ==> Lower(cols[c]) != keys[j])
  }

  /** `name` is a column and no later column lower-cases to the same key. */
  predicate LastNamed(cols: seq<string>, name: string)
  {
    exists c :: 0 <= c < |cols| && cols[c] == name
      && (forall d :: c < d < |cols| ==> Lower(cols[d]) != Lower(name))
  }

  lemma KeyColumnFacts(cols: seq<string>, keys: seq<string>)
    ensures var r := Resolve(LowerKeyMap(cols), keys);
      && (r.Some? ==> r.value in cols && Lower(r.value) in keys)
      && (r.None? <==> forall i :: 0 <= i < |cols| ==> Lower(cols[i]) !in keys)
      && (r.Some? ==> KeyFirst(cols, keys, Lower(r.value)))
      && (r.Some? ==> LastNamed(cols, r.value))
  {
    var m := LowerKeyMap(cols);
    var r := Resolve(m, keys);
    if r.Some? {
      var i :| 0 <= i < |keys| && keys[i] in m && r.value == m[keys[i]] && forall j :: 0 <= j < i ==> keys[j] !in m;
      var c0 :| 0 <= c0 < |cols| && Lower(cols[c0]) == keys[i] && m[keys[i]] == cols[c0];
      forall j, c | 0 <= j < i && 0 <= c < |cols| ensures Lower(cols[c]) != keys[j] {
        assert Lower(cols[c]) in m;
      }
      var c := LastWith(cols, keys[i], c0);
      LaterColumnWins(cols, c);
      assert cols[c] == r.value;
    } else {
      forall j | 0 <= j < |cols| ensures Lower(cols[j]) !in keys {
        assert Lower(cols[j]) in m;
      }
    }
  }

  function AmountColumn(cols: seq<string>): Option<string>
  {
    KeyColumn(cols, AmountKeys)
  }

  function DateColumn(cols: seq<string>): Option<string>
  {
    KeyColumn(cols, DateKeys)
  }

  /** Resolution ignores case: a column written "Amount" is found, and it
      is the one the summary reads. */
  lemma ResolvesWhateverCase(cols: seq<string>, i: nat)
    requires i < |cols| && Lower(cols[i]) == "amount"
    requires forall j :: i < j < |cols| ==> Lower(cols[j]) != "amount"
    ensures AmountColumn(cols) == Some(cols[i])
  {
    LaterColumnWins(cols, i);
    assert AmountKeys[0] == "amount";
  }

  // ---------------------------------------------------------------
  // Cash flow
  // ---------------------------------------------------------------

  /** The amounts that parsed (`dropna`). */
  function Parsed(xs: seq<Option<real>>): (ys: seq<real>)
    ensures |ys| <= |xs|
    ensures |ys| == CountParsed(xs)
    ensures forall y :: y in ys <==> Some(y) in xs
  {
    if |xs| == 0 then []
    else
      var rest := Parsed(xs[1..]);
      assert forall x :: x in xs <==> x == xs[0] || x in xs[1..];
      match xs[0]
      case Some(v) => [v] + rest
      case None => rest
  }

  /** How many cells parsed. */
  function CountParsed(xs: seq<Option<real>>): nat
  {
    if |xs| == 0 then 0 else (if xs[0].Some? then 1 else 0) + CountParsed(xs[1..])
  }

  lemma {:induction false} ParsedLength(xs: seq<Option<real>>)
    ensures |Parsed(xs)| == CountParsed(xs)
  {
    if |xs| > 0 {
      ParsedLength(xs[1..]);
    }
  }

  /** `dropna` keeps the parsed values in their order: the value of cell
      k is at the position given by the number of parsed cells before it. */
  lemma {:induction false} ParsedKeepsOrder(xs: seq<Option<real>>)
    ensures forall k :: 0 <= k < |xs| && xs[k].Some? ==>
      CountParsed(xs[..k]) < |Parsed(xs)| && Parsed(xs)[CountParsed(xs[..k])] == xs[k].value
  {
    if |xs| > 0 {
      ParsedKeepsOrder(xs[1..]);
      forall k | 0 <= k < |xs| && xs[k].Some?
        ensures CountParsed(xs[..k]) < |Parsed(xs)| && Parsed(xs)[CountParsed(xs[..k])] == xs[k].value
      {
        if k > 0 {
          assert xs[..k][1..] == xs[1..][..k - 1];
          assert xs[1..][k - 1] == xs[k];
        }
      }
    }
  }

  function SumPositive(xs: seq<real>): (s: real)
    ensures s >= 0.0
  {
    if |xs| == 0 then 0.0 else (if xs[0] > 0.0 then xs[0] else 0.0) + SumPositive(xs[1..])
  }

  function SumNegative(xs: seq<real>): (s: real)
    ensures s <= 0.0
  {
    if |xs| == 0 then 0.0 else (if xs[0] < 0.0 then xs[0] else 0.0) + SumNegative(xs[1..])
  }

  /** Total inflow adds over a split of the amounts, and one amount
      contributes itself when positive and nothing otherwise: it is the
      sum of the positive amounts. */
  lemma {:induction false} SumPositiveAppend(a: seq<real>, b: seq<real>)
    ensures SumPositive(a + b) == SumPositive(a) + SumPositive(b)
    ensures |a| == 1 ==> SumPositive(a) == MaxR(a[0], 0.0)
  {
    if |a| == 0 {
      assert a + b == b;
    } else {
      assert (a + b)[1..] == a[1..] + b;
      SumPositiveAppend(a[1..], b);
      assert |a| == 1 ==> a[1..] == [];
    }
  }

  /** Total outflow likewise: the sum of the negative amounts. */
  lemma {:induction false} SumNegativeAppend(a: seq<real>, b: seq<real>)
    ensures SumNegative(a + b) == SumNegative(a) + SumNegative(b)
    ensures |a| == 1 ==> SumNegative(a) == MinR(a[0], 0.0)
  {
    if |a| == 0 {
      assert a + b == b;
    } else {
      assert (a + b)[1..] == a[1..] + b;
      SumNegativeAppend(a[1..], b);
      assert |a| == 1 ==> a[1..] == [];
    }
  }

  /** Every amount is an inflow, an outflow or zero, so the net flow is
      the inflows plus the outflows. */
  lemma {:induction false} NetIsInflowPlusOutflow(xs: seq<real>)
    ensures SumR(xs) == SumPositive(xs) + SumNegative(xs)
  {
    if |xs| > 0 {
      NetIsInflowPlusOutflow(xs[1..]);
    }
  }

  datatype CashFlow = CashFlow(transactions: nat, inflow: real, outflow: real, net: real)

  /** The totals over the parsed amounts. */
  function Totals(xs: seq<Option<real>>): (c: CashFlow)
    ensures c.transactions == CountParsed(xs)
    ensures c.inflow == SumPositive(Parsed(xs)) && c.outflow == SumNegative(Parsed(xs)) && c.net == SumR(Parsed(xs))
    ensures c.inflow >= 0.0 && c.outflow <= 0.0
    ensures c.net == c.inflow + c.outflow
  {
    var ys := Parsed(xs);
    ParsedLength(xs);
    NetIsInflowPlusOutflow(ys);
    CashFlow(|ys|, SumPositive(ys), SumNegative(ys), SumR(ys))
  }

  /** The CSV summary: nothing when no amount column resolves, otherwise
      the totals of that column. `parse` stands for `pd.to_numeric(...,
      errors="coerce")` applied to a named column. */
  function CsvSummary(cols: seq<string>, parse: string -> seq<Option<real>>): (r: Option<CashFlow>)
    ensures r.None? <==> forall i :: 0 <= i < |AmountKeys| ==> AmountKeys[i] !in LowerKeyMap(cols)
    ensures r.Some? ==> r.value == Totals(parse(AmountColumn(cols).value))
  {
    match AmountColumn(cols)
    case None => None
    case Some(c) => Some(Totals(parse(c)))
  }

  // ---------------------------------------------------------------
  // Sandbox accounts
  // ---------------------------------------------------------------

  /** The balances of the three sandbox accounts. */
  const DemoBalances: seq<real> := [1243.57, 3120.15, 486.90]

  /** Every balance lies between `lo` and `hi`. */
  predicate Within(xs: seq<real>, lo: real, hi: real)
  {
    forall k :: 0 <= k < |xs| ==> lo <= xs[k] <= hi
  }

  lemma {:induction false} SumWithin(xs: seq<real>, lo: real, hi: real)
    requires Within(xs, lo, hi)
    ensures lo * |xs| as real <= SumR(xs) <= hi * |xs| as real
  {
    if |xs| > 0 {
      assert Within(xs[1..], lo, hi);
      SumWithin(xs[1..], lo, hi);
    }
  }

  /** `total_balance / len(accounts)`. */
  function AverageBalance(balances: seq<real>): real
    requires |balances| > 0
  {
    SumR(balances) / |balances| as real
  }

  /** The average lies between the smallest and the largest balance. */
  lemma AverageBalanceWithin(balances: seq<real>, lo: real, hi: real)
    requires |balances| > 0 && Within(balances, lo, hi)
    ensures lo <= AverageBalance(balances) <= hi
  {
    SumWithin(balances, lo, hi);
  }

  /** The sandbox summary: 4850.62 in total over three accounts. */
  lemma DemoSummary()
    ensures SumR(DemoBalances) == 4850.62
    ensures 486.90 <= AverageBalance(DemoBalances) <= 3120.15
  {
    assert DemoBalances[1..][1..][1..] == [];
    AverageBalanceWithin(DemoBalances, 486.90, 3120.15);
  }
}

=== FILE: data.dfy ===
/** Column normalisation of an uploaded transaction table and the two
    sample ledgers (`app/utils/data.py`). */
module TransactionData {
  import opened Common
  import opened Ledger
  import opened Scoring

  // ---------------------------------------------------------------
  // Raw tables
  // ---------------------------------------------------------------

  /** A raw cell: the `None` that `df[col] = None` puts in an added
      column, or any other cell's content as text. `astype(str)` renders
      the first as "None"; a cell that pandas read as NaN arrives as the
      text "nan", which is how `astype(str)` renders it, and the
      caller-supplied parsers read it as missing. */
  datatype Cell = Null | Text(text: string)

  /** A raw frame: column names and rows of cells, one per column. */
  datatype Table = Table(columns: seq<string>, rows: seq<seq<Cell>>)

  predicate WellFormed(t: Table)
  {
    forall k :: 0 <= k < |t.rows| ==> |t.rows[k]| == |t.columns|
  }

  /** The canonical columns, in order. */
  const DateColumn: string := "date"
  const AmountColumn: string := "amount"
  const TypeColumn: string := "type"
  const CategoryColumn: string := "category"
  const Expected: seq<string> := [DateColumn, AmountColumn, TypeColumn, CategoryColumn]

  /** Position of the first column called `name`. */
  function IndexOf(cols: seq<string>, name: string): (r: Option<nat>)
    ensures r.None? <==> name !in cols
    ensures r.Some? ==> r.value < |cols| && cols[r.value] == name
    ensures r.Some? ==> forall j :: 0 <= j < r.value ==> cols[j] != name
  {
    if |cols| == 0 then None
    else if cols[0] == name then Some(0)
    else match IndexOf(cols[1..], name)
      case Some(i) => Some(i + 1)
      case None => None
  }

  /** `df[name] = None`: a new last column of nulls. */
  function AddNullColumn(t: Table, name: string): (r: Table)
    requires WellFormed(t)
    ensures WellFormed(r)
    ensures r.columns == t.columns + [name]
    ensures |r.rows| == |t.rows|
    ensures forall k :: 0 <= k < |t.rows| ==> r.rows[k] == t.rows[k] + [Null]
  {
    Table(t.columns + [name], seq(|t.rows|, k requires 0 <= k < |t.rows| => t.rows[k] + [Null]))
  }

  /** The loop `for col in expected: if col not in df.columns: df[col] = None`,
      which alters the caller's frame. */
  function AddMissing(t: Table, names: seq<string>): (r: Table)
    requires WellFormed(t)
    ensures WellFormed(r)
    ensures |r.rows| == |t.rows|
    ensures |t.columns| <= |r.columns|
    ensures forall j :: 0 <= j < |t.columns| ==> r.columns[j] == t.columns[j]
    ensures forall n :: n in names ==> n in r.columns
    ensures forall n :: n in r.columns ==> n in t.columns || n in names
    ensures forall k, j :: 0 <= k < |t.rows| && 0 <= j < |t.columns| ==> r.rows[k][j] == t.rows[k][j]
    ensures forall k, j :: 0 <= k < |t.rows| && |t.columns| <= j < |r.columns| ==> r.rows[k][j] == Null
    decreases |names|
  {
    if |names| == 0 then t
    else
      var t1 := if names[0] in t.columns then t else AddNullColumn(t, names[0]);
      var r := AddMissing(t1, names[1..]);
      assert names[0] in t1.columns;
      assert forall n :: n in t1.columns ==> n in r.columns by {
        forall n | n in t1.columns ensures n in r.columns {
          var j :| 0 <= j < |t1.columns| && t1.columns[j] == n;
          assert r.columns[j] == n;
        }
      }
      r
  }

  /** Only missing names are added, each once: every appended column was
      absent from the frame and is one of the names, and no two appended
      columns share a name. */
  lemma {:induction false} AddMissingOnlyMissing(t: Table, names: seq<string>)
    requires WellFormed(t)
    ensures var r := AddMissing(t, names);
      && (forall j :: |t.columns| <= j < |r.columns| ==> r.columns[j] !in t.columns && r.columns[j] in names)
      && (forall i, j :: |t.columns| <= i < j < |r.columns| ==> r.columns[i] != r.columns[j])
    decreases |names|
  {
    if |names| > 0 {
      var t1 := if names[0] in t.columns then t else AddNullColumn(t, names[0]);
      AddMissingOnlyMissing(t1, names[1..]);
      var r := AddMissing(t1, names[1..]);
      assert AddMissing(t, names) == r;
      assert forall n :: n in names[1..] ==> n in names;
      assert var r' := AddMissing(t1, names[1..]);
        forall j :: |t1.columns| <= j < |r'.columns| ==> r'.columns[j] !in t1.columns && r'.columns[j] in names[1..];
      assert forall j :: |t1.columns| <= j < |r.columns| ==> r.columns[j] !in t1.columns && r.columns[j] in names[1..];
      assert forall i, j :: |t1.columns| <= i < j < |r.columns| ==> r.columns[i] != r.columns[j];
      if names[0] !in t.columns {
        assert t1.columns == t.columns + [names[0]];
        assert r.columns[|t.columns|] == t1.columns[|t.columns|] == names[0];
        forall j | |t.columns| <= j < |r.columns|
          ensures r.columns[j] !in t.columns && r.columns[j] in names
        {
          if j >= |t1.columns| {
            assert r.columns[j] !in t1.columns;
          }
        }
        forall i, j | |t.columns| <= i < j < |r.columns|
          ensures r.columns[i] != r.columns[j]
        {
          if i == |t.columns| {
            assert r.columns[j] !in t1.columns;
            assert names[0] in t1.columns;
          }
        }
      }
    }
  }

  /** `df[expected].copy()`: the four canonical columns, in order, each
      taken from the first input column of that name. */
  function Project(t: Table): (r: Table)
    requires WellFormed(t)
    requires forall n :: n in Expected ==> n in t.columns
    ensures WellFormed(r)
    ensures r.columns == Expected
    ensures |r.rows| == |t.rows|
    ensures forall k, j :: 0 <= k < |t.rows| && 0 <= j < 4 ==>
      r.rows[k][j] == t.rows[k][IndexOf(t.columns, Expected[j]).value]
  {
    var idx := seq(4, j requires 0 <= j < 4 => IndexOf(t.columns, Expected[j]).value);
    Table(Expected, seq(|t.rows|, k requires 0 <= k < |t.rows| =>
      seq(4, j requires 0 <= j < 4 => t.rows[k][idx[j]])))
  }

  /** `astype(str)`: a null becomes the text "None". */
  function AsText(c: Cell): string
  {
    match c
    case Null => "None"
    case Text(s) => s
  }

  /** `pd.to_datetime(..., errors="coerce")`: a null is NaT; otherwise the
      caller-supplied parser decides (None for an unparsable value). */
  function ParseDate(c: Cell, parse: string -> Option<Date>): Option<Date>
  {
    match c
    case Null => None
    case Text(s) => parse(s)
  }

  /** `pd.to_numeric(..., errors="coerce")`, with the same convention. */
  function ParseAmount(c: Cell, parse: string -> Option<real>): Option<real>
  {
    match c
    case Null => None
    case Text(s) => parse(s)
  }

  /** Result of `normalize_columns`: the caller's frame as the call leaves
      it, the output's column names and the typed output rows. */
  datatype Normalized = Normalized(caller: Table, columns: seq<string>, rows: seq<Txn>)

  /** The typed row of a projected frame row. */
  function TypedRow(row: seq<Cell>, parseDate: string -> Option<Date>, parseAmount: string -> Option<real>): Txn
    requires |row| == 4
  {
    Txn(ParseDate(row[0], parseDate), ParseAmount(row[1], parseAmount), AsText(row[2]), AsText(row[3]))
  }

  /** The cell of column `name` in row `k`, or a null when the column is
      absent. */
  function CellOf(t: Table, k: nat, name: string): Cell
    requires WellFormed(t) && k < |t.rows|
  {
    match IndexOf(t.columns, name)
    case Some(j) => t.rows[k][j]
    case None => Null
  }

  function NormalizeColumns(t: Table, parseDate: string -> Option<Date>, parseAmount: string -> Option<real>): (r: Normalized)
    requires WellFormed(t)
    ensures r.columns == Expected
    ensures |r.rows| == |t.rows|
    ensures |t.columns| <= |r.caller.columns|
    ensures forall j :: 0 <= j < |t.columns| ==> r.caller.columns[j] == t.columns[j]
    ensures forall n :: n in r.caller.columns ==> n in t.columns || n in Expected
    ensures forall n :: n in Expected ==> n in r.caller.columns
    ensures forall j :: |t.columns| <= j < |r.caller.columns| ==> r.caller.columns[j] !in t.columns
    ensures forall i, j :: |t.columns| <= i < j < |r.caller.columns| ==> r.caller.columns[i] != r.caller.columns[j]
    ensures forall k :: 0 <= k < |t.rows| ==>
      && r.rows[k].date == ParseDate(CellOf(t, k, DateColumn), parseDate)
      && r.rows[k].amount == ParseAmount(CellOf(t, k, AmountColumn), parseAmount)
      && r.rows[k].kind == AsText(CellOf(t, k, TypeColumn))
      && r.rows[k].category == AsText(CellOf(t, k, CategoryColumn))
  {
    var caller := AddMissing(t, Expected);
    AddMissingOnlyMissing(t, Expected);
    var frame := Project(caller);
    ProjectedCells(t);
    var rows := seq(|frame.rows|, k requires 0 <= k < |frame.rows| => TypedRow(frame.rows[k], parseDate, parseAmount));
    Normalized(caller, frame.columns, rows)
  }

  /** Each row of the projected frame holds the input row's date, amount,
      type and category cells, or nulls where the input lacked them. */
  lemma ProjectedCells(t: Table)
    requires WellFormed(t)
    ensures var frame := Project(AddMissing(t, Expected));
      && |frame.rows| == |t.rows|
      && forall k, j :: 0 <= k < |t.rows| && 0 <= j < 4 ==>
           |frame.rows[k]| == 4 && frame.rows[k][j] == CellOf(t, k, Expected[j])
  {
    forall k, j | 0 <= k < |t.rows| && 0 <= j < 4
      ensures |Project(AddMissing(t, Expected)).rows[k]| == 4
      ensures Project(AddMissing(t, Expected)).rows[k][j] == CellOf(t, k, Expected[j])
    {
      ProjectedCell(t, k, j);
    }
  }

  /** One cell of the projected frame. */
  lemma ProjectedCell(t: Table, k: nat, j: nat)
    requires WellFormed(t) && k < |t.rows| && j < 4
    ensures |Project(AddMissing(t, Expected)).rows[k]| == 4
    ensures Project(AddMissing(t, Expected)).rows[k][j] == CellOf(t, k, Expected[j])
  {
    IndexAfterAddMissing(t, Expected, Expected[j]);
  }

  /** Extending a column list at its end does not move the first
      occurrence of a name it already had, and places a new name after
      the old columns. */
  lemma IndexOfExtended(a: seq<string>, b: seq<string>, name: string)
    requires |a| <= |b| && name in b
    requires forall j :: 0 <= j < |a| ==> b[j] == a[j]
    ensures name in a ==> IndexOf(b, name) == IndexOf(a, name)
    ensures name !in a ==> |a| <= IndexOf(b, name).value
  {
    var j := IndexOf(b, name).value;
    if j < |a| {
      assert a[j] == name;
    }
  }

  /** Looking a column up after the missing ones were appended finds the
      original column when there was one, and a column of nulls otherwise. */
  lemma IndexAfterAddMissing(t: Table, names: seq<string>, name: string)
    requires WellFormed(t) && name in names
    ensures var c := AddMissing(t, names);
      && IndexOf(c.columns, name).Some?
      && forall k :: 0 <= k < |t.rows| ==> c.rows[k][IndexOf(c.columns, name).value] == CellOf(t, k, name)
  {
    var c := AddMissing(t, names);
    IndexOfExtended(t.columns, c.columns, name);
  }

  /** A table lacking a column yields that column's null form in every row:
      no date, no amount, and the text "None". */
  lemma MissingColumnsAreNull(t: Table, parseDate: string -> Option<Date>, parseAmount: string -> Option<real>)
    requires WellFormed(t)
    ensures var r := NormalizeColumns(t, parseDate, parseAmount);
      forall k :: 0 <= k < |r.rows| ==>
        && (DateColumn !in t.columns ==> r.rows[k].date.None?)
        && (AmountColumn !in t.columns ==> r.rows[k].amount.None?)
        && (TypeColumn !in t.columns ==> r.rows[k].kind == "None")
        && (CategoryColumn !in t.columns ==> r.rows[k].category == "None")
  {
  }

  // ---------------------------------------------------------------
  // Sample ledgers
  // ---------------------------------------------------------------

  /** One month of the bank sample: a 900 salary and three outflows
      (450 + 120 + 60 = 630), on days 2, 4, 11 and 19. */
  function BankMonth(month: int): seq<Txn>
  {
    [ Txn(Some(Date(month, 2)), Some(900.0), "inflow", "salary"),
      Txn(Some(Date(month, 4)), Some(450.0), "outflow", "rent"),
      Txn(Some(Date(month, 11)), Some(120.0), "outflow", "groceries"),
      Txn(Some(Date(month, 19)), Some(60.0), "outflow", "transport") ]
  }

  /** One month of the mobile-money sample: a 300 gig inflow, a 200 wallet
      spend and a 50 remittance, on days 3, 5 and 15. */
  function MobileMonth(month: int): seq<Txn>
  {
    [ Txn(Some(Date(month, 3)), Some(300.0), "inflow", "ecocash_gig"),
      Txn(Some(Date(month, 5)), Some(200.0), "outflow", "wallet_spend"),
      Txn(Some(Date(month, 15)), Some(50.0), "inflow", "remittance_in") ]
  }

  /** The two sample generators. */
  datatype Sample = Bank | MobileMoney

  function MonthRows(k: Sample, month: int): seq<Txn>
  {
    match k
    case Bank => BankMonth(month)
    case MobileMoney => MobileMonth(month)
  }

  /** `n` consecutive months of rows, `anchor` first and then each
      earlier month (the loop `for m in range(n)` with
      `month_start = today - DateOffset(months=m)`). */
  function Stack(monthRows: int -> seq<Txn>, anchor: int, n: nat): seq<Txn>
  {
    if n == 0 then [] else Stack(monthRows, anchor, n - 1) + monthRows(anchor - (n - 1))
  }

  /** The first `n` months of a sample. */
  function SampleMonths(k: Sample, anchor: int, n: nat): seq<Txn>
  {
    Stack(month => MonthRows(k, month), anchor, n)
  }

  /** `sample_transactions_bank`, with the current month as a parameter. */
  function SampleBank(anchor: int): seq<Txn>
  {
    SampleMonths(Bank, anchor, 6)
  }

  /** `sample_transactions_mobile_money`, with the current month as a parameter. */
  function SampleMobileMoney(anchor: int): seq<Txn>
  {
    SampleMonths(MobileMoney, anchor, 6)
  }

  /** The inflow and outflow each sample month carries. */
  function PerMonth(k: Sample, s: Selector): real
  {
    match (k, s)
    case (Bank, Inflows) => 900.0
    case (Bank, Outflows) => 630.0
    case (MobileMoney, Inflows) => 350.0
    case (MobileMoney, Outflows) => 200.0
    case _ => 0.0
  }

  lemma BankMonthTotals(month: int, m: int)
    ensures MonthTotal(BankMonth(month), Inflows, m) == if m == month then 900.0 else 0.0
    ensures MonthTotal(BankMonth(month), Outflows, m) == if m == month then 630.0 else 0.0
  {
    var rows := BankMonth(month);
    KindsAreLower();
    var r1 := rows[1..];
    var r2 := r1[1..];
    var r3 := r2[1..];
    assert r3[1..] == [];
    assert MonthTotal(r3, Inflows, m) == 0.0;
    assert MonthTotal(r2, Inflows, m) == 0.0;
    assert MonthTotal(r1, Inflows, m) == 0.0;
    assert MonthTotal(r3, Outflows, m) == if m == month then 60.0 else 0.0;
    assert MonthTotal(r2, Outflows, m) == if m == month then 180.0 else 0.0;
    assert MonthTotal(r1, Outflows, m) == if m == month then 630.0 else 0.0;
  }

  /** The two flow labels are already lower case. */
  lemma KindsAreLower()
    ensures Lower("inflow") == "inflow" && Lower("outflow") == "outflow"
  {
    LowerOfLower("inflow");
    LowerOfLower("outflow");
  }

  lemma MobileMonthTotals(month: int, m: int)
    ensures MonthTotal(MobileMonth(month), Inflows, m) == if m == month then 350.0 else 0.0
    ensures MonthTotal(MobileMonth(month), Outflows, m) == if m == month then 200.0 else 0.0
  {
    var rows := MobileMonth(month);
    KindsAreLower();
    var r1 := rows[1..];
    var r2 := r1[1..];
    assert r2[1..] == [];
    assert MonthTotal(r2, Inflows, m) == if m == month then 50.0 else 0.0;
    assert MonthTotal(r1, Inflows, m) == if m == month then 50.0 else 0.0;
    assert MonthTotal(r2, Outflows, m) == 0.0;
    assert MonthTotal(r1, Outflows, m) == if m == month then 200.0 else 0.0;
  }

  lemma MonthRowsTotals(k: Sample, month: int, s: Selector, m: int)
    requires s == Inflows || s == Outflows
    ensures MonthTotal(MonthRows(k, month), s, m) == if m == month then PerMonth(k, s) else 0.0
  {
    match k
    case Bank => BankMonthTotals(month, m);
    case MobileMoney => MobileMonthTotals(month, m);
  }

  /** Stacking months that each carry `v` in their own month and nothing
      elsewhere carries `v` in each of the `n` stacked months. */
  lemma {:induction false} StackTotals(monthRows: int -> seq<Txn>, anchor: int, n: nat, s: Selector, m: int, v: real)
    requires forall month :: MonthTotal(monthRows(month), s, m) == if m == month then v else 0.0
    ensures MonthTotal(Stack(monthRows, anchor, n), s, m) == if anchor - n < m <= anchor then v else 0.0
  {
    if n > 0 {
      StackTotals(monthRows, anchor, n - 1, s, m, v);
      MonthTotalAppend(Stack(monthRows, anchor, n - 1), monthRows(anchor - (n - 1)), s, m);
    }
  }

  lemma {:induction false} StackLength(monthRows: int -> seq<Txn>, anchor: int, n: nat, len: nat)
    requires forall month :: |monthRows(month)| == len
    ensures |Stack(monthRows, anchor, n)| == len * n
  {
    if n > 0 {
      StackLength(monthRows, anchor, n - 1, len);
    }
  }

  lemma SampleMonthsTotals(k: Sample, anchor: int, n: nat, s: Selector, m: int)
    requires s == Inflows || s == Outflows
    ensures MonthTotal(SampleMonths(k, anchor, n), s, m)
            == if anchor - n < m <= anchor then PerMonth(k, s) else 0.0
  {
    var f := month => MonthRows(k, month);
    forall month
      ensures MonthTotal(f(month), s, m) == if m == month then PerMonth(k, s) else 0.0
    {
      MonthRowsTotals(k, month, s, m);
    }
    StackTotals(f, anchor, n, s, m, PerMonth(k, s));
  }

  /** The bank sample has 24 rows; each of its six months holds a 900
      inflow and 630 of outflows, and no other month holds anything. */
  lemma BankSampleShape(anchor: int)
    ensures |SampleBank(anchor)| == 24
    ensures forall m :: MonthTotal(SampleBank(anchor), Inflows, m)
                        == if anchor - 6 < m <= anchor then 900.0 else 0.0
    ensures forall m :: MonthTotal(SampleBank(anchor), Outflows, m)
                        == if anchor - 6 < m <= anchor then 630.0 else 0.0
  {
    StackLength(month => MonthRows(Bank, month), anchor, 6, 4);
    forall m
      ensures MonthTotal(SampleBank(anchor), Inflows, m) == if anchor - 6 < m <= anchor then 900.0 else 0.0
    {
      SampleMonthsTotals(Bank, anchor, 6, Inflows, m);
    }
    forall m
      ensures MonthTotal(SampleBank(anchor), Outflows, m) == if anchor - 6 < m <= anchor then 630.0 else 0.0
    {
      SampleMonthsTotals(Bank, anchor, 6, Outflows, m);
    }
  }

  /** The mobile-money sample has 18 rows; each of its six months holds
      300 + 50 of inflow and a 200 outflow. */
  lemma MobileSampleShape(anchor: int)
    ensures |SampleMobileMoney(anchor)| == 18
    ensures forall m :: MonthTotal(SampleMobileMoney(anchor), Inflows, m)
                        == if anchor - 6 < m <= anchor then 350.0 else 0.0
    ensures forall m :: MonthTotal(SampleMobileMoney(anchor), Outflows, m)
                        == if anchor - 6 < m <= anchor then 200.0 else 0.0
  {
    StackLength(month => MonthRows(MobileMoney, month), anchor, 6, 3);
    forall m
      ensures MonthTotal(SampleMobileMoney(anchor), Inflows, m) == if anchor - 6 < m <= anchor then 350.0 else 0.0
    {
      SampleMonthsTotals(MobileMoney, anchor, 6, Inflows, m);
    }
    forall m
      ensures MonthTotal(SampleMobileMoney(anchor), Outflows, m) == if anchor - 6 < m <= anchor then 200.0 else 0.0
    {
      SampleMonthsTotals(MobileMoney, anchor, 6, Outflows, m);
    }
  }

  /** `v` added up `n` times. */
  function Times(n: nat, v: real): real
  {
    if n == 0 then 0.0 else Times(n - 1, v) + v
  }

  /** Stacked months that each carry `v` of a flow carry `v` once per
      month in all. */
  lemma {:induction false} StackFlowTotal(monthRows: int -> seq<Txn>, anchor: int, n: nat, s: Selector, v: real)
    requires forall month :: FlowTotal(monthRows(month), s) == v
    ensures FlowTotal(Stack(monthRows, anchor, n), s) == Times(n, v)
  {
    if n > 0 {
      StackFlowTotal(monthRows, anchor, n - 1, s, v);
      FlowTotalAppend(Stack(monthRows, anchor, n - 1), monthRows(anchor - (n - 1)), s);
    }
  }

  lemma BankMonthFlows(month: int)
    ensures FlowTotal(BankMonth(month), Inflows) == 900.0
    ensures FlowTotal(BankMonth(month), Outflows) == 630.0
  {
    var rows := BankMonth(month);
    KindsAreLower();
    var r1 := rows[1..];
    var r2 := r1[1..];
    var r3 := r2[1..];
    assert r3[1..] == [];
    assert FlowTotal(r3, Inflows) == 0.0;
    assert FlowTotal(r2, Inflows) == 0.0;
    assert FlowTotal(r1, Inflows) == 0.0;
    assert FlowTotal(r3, Outflows) == 60.0;
    assert FlowTotal(r2, Outflows) == 180.0;
    assert FlowTotal(r1, Outflows) == 630.0;
  }

  /** The bank sample earns 5400 and spends 3780 over its six months. */
  lemma BankSampleFlows(anchor: int)
    ensures FlowTotal(SampleBank(anchor), Inflows) == 5400.0
    ensures FlowTotal(SampleBank(anchor), Outflows) == 3780.0
  {
    var f := month => MonthRows(Bank, month);
    forall month
      ensures FlowTotal(f(month), Inflows) == 900.0 && FlowTotal(f(month), Outflows) == 630.0
    {
      BankMonthFlows(month);
    }
    StackFlowTotal(f, anchor, 6, Inflows, 900.0);
    StackFlowTotal(f, anchor, 6, Outflows, 630.0);
    assert Times(6, 900.0) == 5400.0;
    assert Times(6, 630.0) == 3780.0;
  }

  /** The bank sample spends 70% of what it earns, so its extracted
      expense ratio is 0.7, which the rule score leaves unadjusted. */
  lemma BankSampleExpenseRatio(anchor: int, root: real -> real)
    ensures ComputeFeatures(SampleBank(anchor), root).expenseRatio == 0.7
    ensures ExpenseAdjustment(0.7) == 0
  {
    var rows := SampleBank(anchor);
    BankSampleFlows(anchor);
    BankSampleShape(anchor);
    assert 3780.0 / 5400.0 == 0.7;
    assert RoundHalfEven(0.7 * 100.0) == 70;
    assert Round2(0.7) == 0.7;
  }
}

=== FILE: kyc.dfy ===
/** The KYC onboarding form (`app/pages/1_KYC.py`): which of its four
    steps are complete, the progress percentage, and the outcome of
    pressing submit. */
module Kyc {

  /** The form's fields. Text fields hold what was typed ("" when blank);
      the two uploads are present or not; the select boxes always hold one
      of their options. */
  datatype Form = Form(
    fullName: string,
    nationality: string,
    residency: string,
    phone: string,
    email: string,
    idNumber: string,
    idIssueCountry: string,
    idDoc: bool,
    selfie: bool,
    address: string,
    city: string,
    postalCode: string,
    employment: string,
    incomeRange: string,
    agreeTerms: bool)

  /** Python truthiness of a text field. */
  predicate Filled(s: string)
  {
    |s| > 0
  }

  predicate IdentityDone(f: Form)
  {
    Filled(f.fullName) && Filled(f.nationality) && Filled(f.residency) && Filled(f.phone) && Filled(f.email)
  }

  predicate DocumentsDone(f: Form)
  {
    f.idDoc && f.selfie && Filled(f.idNumber) && Filled(f.idIssueCountry)
  }

  predicate AddressDone(f: Form)
  {
    Filled(f.address) && Filled(f.city) && Filled(f.postalCode) && Filled(f.employment) && Filled(f.incomeRange)
  }

  function Bit(b: bool): nat
  {
    if b then 1 else 0
  }

  /** `completed_steps`: one for each finished step, consent included. */
  function CompletedSteps(f: Form): (n: nat)
    ensures n <= 4
    ensures n == 4 <==> IdentityDone(f) && DocumentsDone(f) && AddressDone(f) && f.agreeTerms
    ensures n == 0 <==> !IdentityDone(f) && !DocumentsDone(f) && !AddressDone(f) && !f.agreeTerms
  {
    Bit(IdentityDone(f)) + Bit(DocumentsDone(f)) + Bit(AddressDone(f)) + Bit(f.agreeTerms)
  }

  /** `int((completed_steps / 4) * 100)`. */
  function Progress(f: Form): (p: int)
    ensures p == 25 * CompletedSteps(f)
    ensures p in {0, 25, 50, 75, 100}
    ensures p == 100 <==> IdentityDone(f) && DocumentsDone(f) && AddressDone(f) && f.agreeTerms
  {
    var c := CompletedSteps(f);
    var x := (c as real / 4.0) * 100.0;
    assert x == (25 * c) as real;
    x.Floor
  }

  datatype Outcome = ConsentError | MissingFieldsWarning | Submitted

  /** Pressing submit: consent is checked first, then the name, email, ID
      document and selfie; nothing else is checked. */
  function Submit(f: Form): (o: Outcome)
    ensures !f.agreeTerms ==> o == ConsentError
    ensures f.agreeTerms && !(Filled(f.fullName) && Filled(f.email) && f.idDoc && f.selfie) ==> o == MissingFieldsWarning
    ensures o == Submitted <==> f.agreeTerms && Filled(f.fullName) && Filled(f.email) && f.idDoc && f.selfie
  {
    if !f.agreeTerms then ConsentError
    else if !Filled(f.fullName) || !Filled(f.email) || !f.idDoc || !f.selfie then MissingFieldsWarning
    else Submitted
  }

  /** A fully complete form always submits. */
  lemma CompleteFormSubmits(f: Form)
    requires Progress(f) == 100
    ensures Submit(f) == Submitted
  {
  }

  /** Submission succeeds on a form that is not complete: with the phone
      number left blank the identity step is unfinished, progress is 75,
      and the submission still goes through. */
  lemma SubmitsBelowFullProgress()
    ensures var f := Form("Ana Cruz", "Peruvian", "Chile", "", "ana@example.com", "X123", "Peru",
                          true, true, "Av. 1", "Santiago", "8320000", "Student", "Below $500", true);
      Submit(f) == Submitted && Progress(f) == 75
  {
    var f := Form("Ana Cruz", "Peruvian", "Chile", "", "ana@example.com", "X123", "Peru",
                  true, true, "Av. 1", "Santiago", "8320000", "Student", "Below $500", true);
    assert !IdentityDone(f);
    assert DocumentsDone(f) && AddressDone(f);
  }
}

=== FILE: ledger.dfy ===
/** The transaction table shared by the normaliser and the feature
    extractor: one record per row of the `date, amount, type, category`
    frame. */
module Ledger {
  import opened Common

  /** A calendar date. `month` numbers calendar months consecutively
      (year * 12 + month-of-year - 1), so grouping rows by `month` is
      grouping by pandas' `to_period("M")`, and "m months before" is
      `month - m`. */
  datatype Date = Date(month: int, day: int)

  /** One transaction row. `date` and `amount` are `None` where pandas
      holds NaT / NaN (an unparsable or missing cell); `kind` is the text
      of the `type` column ("inflow" / "outflow" in any case); `category`
      is the text of the `category` column. */
  datatype Txn = Txn(date: Option<Date>, amount: Option<real>, kind: string, category: string)
}

=== FILE: lender_portal.dfy ===
/** The lender portal (`app/pages/5_LenderPortal.py`): a roster of
    borrower applications with a derived risk band, portfolio counts, the
    filter, the applicant selection, the recommendation and suggested
    exposure for one applicant, and the approve / decline decisions as
    pure updates of the roster. */
module LenderPortal {
  import opened Common
  import opened BankLink

  datatype Status = InReview | Approved | Declined

  /** Where an approved amount is disbursed. */
  datatype Channel = Wallet | BankAccount

  /** One roster row. `band` is the risk band derived from `score` when the
      roster is built. */
  datatype Borrower = Borrower(
    id: int,
    name: string,
    country: string,
    requested: int,
    score: int,
    volatility: int,
    flags: string,
    status: Status,
    wallet: int,
    bank: int,
    band: Risk)

  /** `risk_band`: Low from 760, Medium from 620, High below. */
  function RiskBand(score: int): (r: Risk)
    ensures r == Low <==> score >= 760
    ensures r == Medium <==> 620 <= score < 760
    ensures r == High <==> score < 620
  {
    if score >= 760 then Low else if score >= 620 then Medium else High
  }

  /** The portal's bands are the BankLink page's risk levels. */
  lemma RiskBandIsRiskLevel(score: int)
    ensures RiskBand(score) == RiskLevel(score)
  {
  }

  /** Every row's band is the band of its score. */
  predicate BandsConsistent(roster: seq<Borrower>)
  {
    forall k :: 0 <= k < |roster| ==> roster[k].band == RiskBand(roster[k].score)
  }

  function Applicant(id: int, name: string, country: string, requested: int, score: int,
                     volatility: int, flags: string, status: Status, wallet: int, bank: int): (b: Borrower)
    ensures b.band == RiskBand(score) && b.score == score && b.status == status
  {
    Borrower(id, name, country, requested, score, volatility, flags, status, wallet, bank, RiskBand(score))
  }

  /** The roster the portal starts from. */
  function InitialRoster(): (roster: seq<Borrower>)
    ensures |roster| == 4
    ensures BandsConsistent(roster)
  {
    [ Applicant(1, "John Rivera", "Philippines", 150, 712, 27, "Low volatility, Clean history", Status.InReview, 45, 320),
      Applicant(2, "Lina Chen", "Malaysia", 80, 640, 48, "Medium volatility", Status.InReview, 120, 510),
      Applicant(3, "Samuel Okoro", "Kenya", 220, 560, 72, "High volatility, Thin file", Status.InReview, 30, 190),
      Applicant(4, "Maria Gomez", "Colombia", 300, 785, 18, "Strong stability", Approved, 260, 1100) ]
  }

  // ---------------------------------------------------------------
  // Portfolio overview
  // ---------------------------------------------------------------

  function CountStatus(roster: seq<Borrower>, s: Status): (n: nat)
    ensures n <= |roster|
  {
    if |roster| == 0 then 0
    else (if roster[0].status == s then 1 else 0) + CountStatus(roster[1..], s)
  }

  /** The status count adds over a split of the roster, and one row
      counts 1 exactly when it has the status: it is the number of rows
      with that status. */
  lemma {:induction false} CountStatusAppend(a: seq<Borrower>, b: seq<Borrower>, s: Status)
    ensures CountStatus(a + b, s) == CountStatus(a, s) + CountStatus(b, s)
    ensures |a| == 1 ==> CountStatus(a, s) == if a[0].status == s then 1 else 0
  {
    if |a| == 0 {
      assert a + b == b;
    } else {
      assert (a + b)[1..] == a[1..] + b;
      CountStatusAppend(a[1..], b, s);
      assert |a| == 1 ==> a[1..] == [];
    }
  }

  /** Approved and in-review applications never outnumber the roster. */
  lemma {:induction false} ApprovedAndInReviewBounded(roster: seq<Borrower>)
    ensures CountStatus(roster, Approved) + CountStatus(roster, Status.InReview) <= |roster|
  {
    if |roster| > 0 {
      ApprovedAndInReviewBounded(roster[1..]);
    }
  }

  function ScoreSum(roster: seq<Borrower>): int
  {
    if |roster| == 0 then 0 else roster[0].score + ScoreSum(roster[1..])
  }

  /** Every score lies between `lo` and `hi`. */
  predicate ScoresWithin(roster: seq<Borrower>, lo: int, hi: int)
  {
    forall k :: 0 <= k < |roster| ==> lo <= roster[k].score <= hi
  }

  /** One more term in `[lo, hi]` keeps a sum of `m` such terms between `lo * m` and `hi * m`. */
  lemma StepBounds(lo: real, hi: real, x: real, rest: real, m: real)
    requires lo * m <= rest <= hi * m && lo <= x <= hi
    ensures lo * (m + 1.0) <= x + rest <= hi * (m + 1.0)
  {
  }

  lemma {:induction false} ScoreSumBounds(roster: seq<Borrower>, lo: int, hi: int)
    requires ScoresWithin(roster, lo, hi)
    ensures lo as real * |roster| as real <= ScoreSum(roster) as real <= hi as real * |roster| as real
  {
    if |roster| > 0 {
      assert ScoresWithin(roster[1..], lo, hi);
      ScoreSumBounds(roster[1..], lo, hi);
      StepBounds(lo as real, hi as real, roster[0].score as real,
        ScoreSum(roster[1..]) as real, |roster[1..]| as real);
    }
  }

  /** `int(borrowers["AI Score"].mean())`: the mean score, truncated. The
      roster is never empty (rows are only updated, never removed). */
  function AverageScore(roster: seq<Borrower>): int
    requires |roster| > 0
  {
    Trunc(ScoreSum(roster) as real / |roster| as real)
  }

  /** The truncated average lies between the lowest and highest score. */
  lemma AverageScoreWithin(roster: seq<Borrower>, lo: int, hi: int)
    requires |roster| > 0 && 0 <= lo && ScoresWithin(roster, lo, hi)
    ensures lo <= AverageScore(roster) <= hi
  {
    ScoreSumBounds(roster, lo, hi);
    QuotientBetween(ScoreSum(roster) as real, |roster| as real, lo as real, hi as real);
    TruncBetween(ScoreSum(roster) as real / |roster| as real, lo, hi);
  }

  /** A sum between `n·lo` and `n·hi` has its mean between `lo` and `hi`. */
  lemma QuotientBetween(s: real, n: real, lo: real, hi: real)
    requires 0.0 < n && lo * n <= s <= hi * n
    ensures lo <= s / n <= hi
  {
    var q := s / n;
    assert q * n == s;
    assert (q - lo) * n == s - lo * n;
    assert (hi - q) * n == hi * n - s;
  }

  /** The overview of the initial roster: four applications, one approved,
      three in review, average score 674 (2697 / 4 = 674.25). */
  lemma InitialOverview()
    ensures CountStatus(InitialRoster(), Approved) == 1
    ensures CountStatus(InitialRoster(), Status.InReview) == 3
    ensures AverageScore(InitialRoster()) == 674
  {
    var r := InitialRoster();
    assert r[1..][1..][1..][1..] == [];
    assert ScoreSum(r) == 2697;
  }

  // ---------------------------------------------------------------
  // Filter and selection
  // ---------------------------------------------------------------

  /** The filter widgets: selected countries, selected bands, an inclusive
      score range and a volatility ceiling. */
  datatype Criteria = Criteria(countries: set<string>, bands: set<Risk>, scoreMin: int, scoreMax: int, volMax: int)

  predicate Matches(b: Borrower, c: Criteria)
  {
    && b.country in c.countries
    && b.band in c.bands
    && c.scoreMin <= b.score <= c.scoreMax
    && b.volatility <= c.volMax
  }

  /** `borrowers[filt]`: the matching rows, in roster order. */
  function Filter(roster: seq<Borrower>, c: Criteria): (r: seq<Borrower>)
    ensures |r| <= |roster|
    ensures forall b :: b in r <==> b in roster && Matches(b, c)
  {
    if |roster| == 0 then []
    else (if Matches(roster[0], c) then [roster[0]] else []) + Filter(roster[1..], c)
  }

  /** Filtering distributes over concatenation, so the filtered rows keep
      their roster order. */
  lemma {:induction false} FilterAppend(a: seq<Borrower>, b: seq<Borrower>, c: Criteria)
    ensures Filter(a + b, c) == Filter(a, c) + Filter(b, c)
  {
    if |a| == 0 {
      assert a + b == b;
    } else {
      assert (a + b)[1..] == a[1..] + b;
      FilterAppend(a[1..], b, c);
    }
  }

  /** Index of the first row named `name` (`borrowers[borrowers["Name"] == name].index[0]`). */
  function FirstNamed(roster: seq<Borrower>, name: string): (r: Option<nat>)
    ensures r.None? <==> forall k :: 0 <= k < |roster| ==> roster[k].name != name
    ensures r.Some? ==> r.value < |roster| && roster[r.value].name == name
    ensures r.Some? ==> forall k :: 0 <= k < r.value ==> roster[k].name != name
  {
    if |roster| == 0 then None
    else if roster[0].name == name then Some(0)
    else match FirstNamed(roster[1..], name)
      case Some(i) => Some(i + 1)
      case None => None
  }

  /** The applicant whose detail panel opens when entry `choice` of the
      filtered list is picked: none when the filter matches nothing (the
      page stops there), otherwise the first roster row carrying the
      picked name. */
  function SelectApplicant(roster: seq<Borrower>, c: Criteria, choice: nat): (r: Option<nat>)
    requires choice < |Filter(roster, c)| || |Filter(roster, c)| == 0
    ensures r.None? <==> |Filter(roster, c)| == 0
    ensures r.Some? ==> r.value < |roster| && roster[r.value].name == Filter(roster, c)[choice].name
    ensures r.Some? ==> forall k :: 0 <= k < r.value ==> roster[k].name != roster[r.value].name
  {
    var f := Filter(roster, c);
    if |f| == 0 then None
    else
      assert f[choice] in roster;
      FirstNamed(roster, f[choice].name)
  }

  /** No two rows share a name. */
  predicate NamesUnique(roster: seq<Borrower>)
  {
    forall i, j :: 0 <= i < j < |roster| ==> roster[i].name != roster[j].name
  }

  /** With unique names the opened applicant is the filtered row itself,
      so it matches the filter. */
  lemma SelectedMatches(roster: seq<Borrower>, c: Criteria, choice: nat)
    requires NamesUnique(roster)
    requires choice < |Filter(roster, c)|
    ensures SelectApplicant(roster, c, choice).Some?
    ensures Matches(roster[SelectApplicant(roster, c, choice).value], c)
  {
    var f := Filter(roster, c);
    var i := SelectApplicant(roster, c, choice).value;
    assert f[choice] in roster;
    var j :| 0 <= j < |roster| && roster[j] == f[choice];
    assert roster[i].name == roster[j].name;
    assert i == j;
  }

  // ---------------------------------------------------------------
  // One applicant
  // ---------------------------------------------------------------

  datatype Recommendation = StrongApprove | ApproveStandardLimit | ReviewManually | Decline

  /** The recommendation chain, first match wins. */
  function Recommend(score: int, volatility: int): (r: Recommendation)
    ensures r == StrongApprove <==> score >= 760 && volatility < 40
    ensures r == ApproveStandardLimit <==> !(score >= 760 && volatility < 40) && score >= 630 && volatility < 60
    ensures r == Decline <==> score < 580
  {
    if score >= 760 && volatility < 40 then StrongApprove
    else if score >= 630 && volatility < 60 then ApproveStandardLimit
    else if score >= 580 then ReviewManually
    else Decline
  }

  function Strength(r: Recommendation): int
  {
    match r
    case Decline => 0
    case ReviewManually => 1
    case ApproveStandardLimit => 2
    case StrongApprove => 3
  }

  /** A higher score or a lower volatility never weakens the recommendation. */
  lemma RecommendMonotone(s1: int, s2: int, v1: int, v2: int)
    requires s1 <= s2 && v2 <= v1
    ensures Strength(Recommend(s1, v1)) <= Strength(Recommend(s2, v2))
  {
  }

  /** The share of the request the portal suggests exposing: all of it for
      a low-risk band, 70% for medium, 40% for high. */
  function ExposureFactor(band: Risk): (f: real)
    ensures 0.0 < f <= 1.0
    ensures f == 1.0 <==> band == Low
  {
    match band
    case Low => 1.0
    case Medium => 0.7
    case High => 0.4
  }

  /** `int(requested * exposure_factor)`. */
  function SuggestedLimit(requested: int, band: Risk): (l: int)
    requires 0 <= requested
    ensures 0 <= l <= requested
    ensures band == Low ==> l == requested
    ensures l as real <= requested as real * ExposureFactor(band) < l as real + 1.0
  {
    var x := requested as real * ExposureFactor(band);
    TruncBetween(x, 0, requested);
    Trunc(x)
  }

  /** A riskier band never gets a larger suggested limit. */
  lemma SuggestedLimitByBand(requested: int)
    requires 0 <= requested
    ensures SuggestedLimit(requested, High) <= SuggestedLimit(requested, Medium) <= SuggestedLimit(requested, Low)
  {
    TruncMonotone(requested as real * 0.4, requested as real * 0.7);
    TruncMonotone(requested as real * 0.7, requested as real * 1.0);
  }

  // ---------------------------------------------------------------
  // Decisions
  // ---------------------------------------------------------------

  /** Approve with a disbursement: a positive amount marks the row Approved
      and credits it to the chosen balance; a zero amount changes nothing. */
  function Approve(roster: seq<Borrower>, idx: nat, amount: int, channel: Channel): (r: seq<Borrower>)
    requires idx < |roster|
    ensures |r| == |roster|
    ensures amount <= 0 ==> r == roster
    ensures forall k :: 0 <= k < |roster| && k != idx ==> r[k] == roster[k]
    ensures amount > 0 ==> r[idx].status == Approved
    ensures amount > 0 && channel == Wallet ==> r[idx] == roster[idx].(status := Approved, wallet := roster[idx].wallet + amount)
    ensures amount > 0 && channel == BankAccount ==> r[idx] == roster[idx].(status := Approved, bank := roster[idx].bank + amount)
  {
    if amount <= 0 then roster
    else
      var b := roster[idx];
      var b' := match channel
        case Wallet => b.(status := Approved, wallet := b.wallet + amount)
        case BankAccount => b.(status := Approved, bank := b.bank + amount);
      roster[idx := b']
  }

  /** Decline: the row's status becomes Declined and nothing else moves. */
  function DeclineApplication(roster: seq<Borrower>, idx: nat): (r: seq<Borrower>)
    requires idx < |roster|
    ensures |r| == |roster|
    ensures r[idx] == roster[idx].(status := Declined)
    ensures forall k :: 0 <= k < |roster| && k != idx ==> r[k] == roster[k]
  {
    roster[idx := roster[idx].(status := Declined)]
  }

  /** The money held across the roster, wallets and bank accounts together. */
  function Funds(roster: seq<Borrower>): int
  {
    if |roster| == 0 then 0 else roster[0].wallet + roster[0].bank + Funds(roster[1..])
  }

  /** Replacing one row changes the total by the difference of the rows. */
  lemma {:induction false} FundsUpdate(roster: seq<Borrower>, idx: nat, b: Borrower)
    requires idx < |roster|
    ensures Funds(roster[idx := b]) == Funds(roster) - (roster[idx].wallet + roster[idx].bank) + (b.wallet + b.bank)
  {
    if idx > 0 {
      assert roster[idx := b][1..] == roster[1..][idx - 1 := b];
      FundsUpdate(roster[1..], idx - 1, b);
    } else {
      assert roster[idx := b][1..] == roster[1..];
    }
  }

  /** A disbursement adds exactly the disbursed amount to the roster's
      funds, whichever channel it goes to; a decline moves no money. */
  lemma DisbursementConservesFunds(roster: seq<Borrower>, idx: nat, amount: int, channel: Channel)
    requires idx < |roster|
    ensures amount > 0 ==> Funds(Approve(roster, idx, amount, channel)) == Funds(roster) + amount
    ensures Funds(DeclineApplication(roster, idx)) == Funds(roster)
  {
    if amount > 0 {
      FundsUpdate(roster, idx, Approve(roster, idx, amount, channel)[idx]);
      assert Approve(roster, idx, amount, channel) == roster[idx := Approve(roster, idx, amount, channel)[idx]];
    }
    FundsUpdate(roster, idx, roster[idx].(status := Declined));
  }

  /** Decisions leave scores alone, so every band stays the band of its
      score. */
  lemma DecisionsKeepBands(roster: seq<Borrower>, idx: nat, amount: int, channel: Channel)
    requires idx < |roster| && BandsConsistent(roster)
    ensures BandsConsistent(Approve(roster, idx, amount, channel))
    ensures BandsConsistent(DeclineApplication(roster, idx))
  {
  }
}

=== FILE: microloan.dfy ===
/** The instant micro-loan decision engine (`app/pages/4_Microloan.py`):
    a volatility-penalised score decides the offer, which then fixes the
    APR, the offered amount, simple interest, the number of installments,
    a flat amortisation schedule and a list of flags. */
module Microloan {
  import opened Common

  datatype Frequency = Weekly | BiWeekly | Monthly

  /** The page's inputs. The widgets bound them (request 20..800 in steps
      of 10, duration 2..24 weeks, score 300..900, volatility 0..100);
      the rules below hold for any values unless a property says so. */
  datatype LoanRequest = LoanRequest(amount: int, weeks: int, frequency: Frequency, aiScore: int, volatility: int)

  datatype Decision = Approved | NeedsManualReview | Declined

  const AutoApprovalCutoff: real := 720.0
  const ReviewCutoff: real := 630.0

  /** The score after the volatility penalty of 0.4 per point. */
  function FinalScore(aiScore: int, volatility: int): (f: real)
    ensures 0 <= volatility ==> f <= aiScore as real
    ensures f == aiScore as real <==> volatility == 0
  {
    aiScore as real - volatility as real * 0.4
  }

  function DecisionOf(final: real): (d: Decision)
    ensures d == Approved <==> final >= AutoApprovalCutoff
    ensures d == NeedsManualReview <==> ReviewCutoff <= final < AutoApprovalCutoff
    ensures d == Declined <==> final < ReviewCutoff
  {
    if final >= AutoApprovalCutoff then Approved
    else if final >= ReviewCutoff then NeedsManualReview
    else Declined
  }

  /** A better final score never gives a worse decision. */
  function Rank(d: Decision): int
  {
    match d
    case Declined => 0
    case NeedsManualReview => 1
    case Approved => 2
  }

  lemma DecisionMonotone(x: real, y: real)
    requires x <= y
    ensures Rank(DecisionOf(x)) <= Rank(DecisionOf(y))
  {
  }

  /** The risk-adjusted APR, in percent: 9.5 plus 1 per 20 score points
      below 700 plus 1 per 15 volatility points, floored at 5.9. */
  function Apr(aiScore: int, volatility: int): (apr: real)
    ensures apr >= 5.9
    ensures apr >= 9.5 + (700 - aiScore) as real / 20.0 + volatility as real / 15.0
    ensures apr == 5.9 || apr == 9.5 + (700 - aiScore) as real / 20.0 + volatility as real / 15.0
  {
    MaxR(5.9, 9.5 + (700 - aiScore) as real / 20.0 + volatility as real / 15.0)
  }

  /** A higher score never raises the APR and higher volatility never
      lowers it. */
  lemma AprMonotone(s1: int, s2: int, v1: int, v2: int)
    requires s2 <= s1 && v1 <= v2
    ensures Apr(s1, v1) <= Apr(s2, v2)
  {
    assert (700 - s1) as real / 20.0 <= (700 - s2) as real / 20.0;
    assert v1 as real / 15.0 <= v2 as real / 15.0;
  }

  /** `int(np.clip(int((final - 300) / 600 * 600), 30, 600))`; the inner
      `int()` truncates toward zero because the operand is negative for
      final scores under 300. */
  function MaxOffer(final: real): (m: int)
    ensures 30 <= m <= 600
    ensures 330.0 <= final <= 900.0 ==> m == (final - 300.0).Floor
  {
    Clip(Trunc((final - 300.0) / 600.0 * 600.0), 30, 600)
  }

  lemma MaxOfferMonotone(x: real, y: real)
    requires x <= y
    ensures MaxOffer(x) <= MaxOffer(y)
  {
    assert (x - 300.0) / 600.0 * 600.0 <= (y - 300.0) / 600.0 * 600.0;
    TruncMonotone((x - 300.0) / 600.0 * 600.0, (y - 300.0) / 600.0 * 600.0);
  }

  /** `max(0, min(request, max_offer))`. */
  function ApprovedAmount(request: int, maxOffer: int): (a: int)
    ensures 0 <= a
    ensures a <= maxOffer || a == 0
    ensures 0 <= request ==> a <= request
    ensures 0 <= request && 0 <= maxOffer ==> (a == request || a == maxOffer)
  {
    Max(0, Min(request, maxOffer))
  }

  /** `num_payments`: the duration in weeks, half of it (floor), or a
      quarter of it rounded half to even, never less than one. */
  function Installments(f: Frequency, weeks: int): (n: int)
    ensures 1 <= n
    ensures f == Weekly && 1 <= weeks ==> n == weeks
    ensures f == BiWeekly && 2 <= weeks ==> n == weeks / 2
    ensures f == Monthly && 2 <= weeks ==> n as real - 0.5 <= weeks as real / 4.0 <= n as real + 0.5
  {
    var n := match f
      case Weekly => weeks
      case BiWeekly => Max(1, weeks / 2)
      case Monthly => Max(1, RoundHalfEven(weeks as real / 4.0));
    Max(1, n)
  }

  /** There are never more installments than weeks. */
  lemma InstallmentsAtMostWeeks(f: Frequency, weeks: int)
    requires 1 <= weeks
    ensures Installments(f, weeks) <= weeks
  {
    if f == Monthly {
      var r := RoundHalfEven(weeks as real / 4.0);
      assert r as real <= weeks as real / 4.0 + 0.5;
    }
  }

  /** A duration of 4k + 2 weeks lies exactly between two month counts,
      and the count chosen is the even one. */
  lemma MonthlyTiesGoEven(weeks: int)
    requires 6 <= weeks && weeks % 4 == 2
    ensures Installments(Monthly, weeks) % 2 == 0
  {
    var q := weeks / 4;
    var x := weeks as real / 4.0;
    assert weeks == 4 * q + 2;
    assert x == q as real + 0.5;
    var n := RoundHalfEven(x);
    assert n == q || n == q + 1;
    assert n % 2 == 0;
    assert Installments(Monthly, weeks) == Max(1, Max(1, n));
  }

  /** Monthly rounding is half to even: 6 weeks and 10 weeks both give two
      monthly installments, and 2 weeks gives one. */
  lemma MonthlyRoundsHalfToEven()
    ensures Installments(Monthly, 6) == 2
    ensures Installments(Monthly, 10) == 2
    ensures Installments(Monthly, 2) == 1
  {
    assert (6 as real / 4.0).Floor == 1;
    assert (10 as real / 4.0).Floor == 2;
    assert (2 as real / 4.0).Floor == 0;
  }

  // ---------------------------------------------------------------
  // The offer
  // ---------------------------------------------------------------

  /** Everything the page derives from the inputs, before the schedule. */
  datatype Offer = Offer(
    final: real,
    decision: Decision,
    apr: real,
    maxOffer: int,
    approved: int,
    active: bool,
    interest: real,
    total: real,
    payments: int,
    principalPer: real,
    interestPer: real)

  /** An amount split into `n` equal parts when the offer is active, and
      nothing otherwise. */
  function Spread(active: bool, x: real, n: int): (r: real)
    requires 1 <= n
    ensures active ==> r * n as real == x
    ensures !active ==> r == 0.0
    ensures 0.0 <= x ==> 0.0 <= r
  {
    if active then x / n as real else 0.0
  }

  /** Simple interest on `approved` at `apr` percent for `weeks` weeks. */
  function SimpleInterest(approved: int, apr: real, weeks: int): (r: real)
    ensures 0 <= approved && 0.0 <= apr && 0 <= weeks ==> 0.0 <= r
    ensures weeks == 52 ==> r == approved as real * apr / 100.0
    ensures approved == 0 || weeks == 0 ==> r == 0.0
    ensures r * 52.0 == approved as real * apr / 100.0 * weeks as real
  {
    approved as real * (apr / 100.0) * (weeks as real / 52.0)
  }

  /** The decision and the amount: the first half of the page's offer. */
  datatype Terms = Terms(final: real, decision: Decision, apr: real, maxOffer: int, approved: int)

  function TermsOf(r: LoanRequest): (t: Terms)
    ensures t.final == FinalScore(r.aiScore, r.volatility)
    ensures t.decision == DecisionOf(t.final)
    ensures t.apr == Apr(r.aiScore, r.volatility) && t.apr >= 5.9
    ensures t.maxOffer == MaxOffer(t.final) && 30 <= t.maxOffer <= 600
    ensures t.approved == ApprovedAmount(r.amount, t.maxOffer)
    ensures 0 <= t.approved && (t.approved <= t.maxOffer || t.approved == 0)
    ensures 0 <= r.amount ==> t.approved <= r.amount
    ensures 20 <= r.amount ==> 20 <= t.approved
  {
    var final := FinalScore(r.aiScore, r.volatility);
    var maxOffer := MaxOffer(final);
    Terms(final, DecisionOf(final), Apr(r.aiScore, r.volatility), maxOffer, ApprovedAmount(r.amount, maxOffer))
  }

  /** The second half of the page's offer: whether a schedule exists, the
      simple interest and total, and the per-installment shares. */
  function Assemble(t: Terms, weeks: int, n: int): (o: Offer)
    requires 1 <= n && 0 <= t.approved
    ensures o.final == t.final && o.decision == t.decision && o.apr == t.apr
    ensures o.maxOffer == t.maxOffer && o.approved == t.approved && o.payments == n
    ensures o.active <==> t.approved > 0 && t.decision != Declined
    ensures o.active ==> o.interest == SimpleInterest(t.approved, t.apr, weeks)
    ensures o.active ==> o.total == t.approved as real + o.interest
    ensures !o.active ==> o.interest == 0.0 && o.total == 0.0
    ensures Consistent(o)
  {
    var active := t.approved > 0 && t.decision != Declined;
    var interest := if active then SimpleInterest(t.approved, t.apr, weeks) else 0.0;
    var total := if active then t.approved as real + interest else 0.0;
    Offer(t.final, t.decision, t.apr, t.maxOffer, t.approved, active, interest, total, n,
          Spread(active, t.approved as real, n), Spread(active, interest, n))
  }

  function Quote(r: LoanRequest): (o: Offer)
    ensures var t := TermsOf(r);
      && o.decision == t.decision && o.apr == t.apr && o.maxOffer == t.maxOffer && o.approved == t.approved
    ensures o.active <==> o.approved > 0 && o.decision != Declined
    ensures o.payments == Installments(r.frequency, r.weeks) && o.payments >= 1
    ensures Consistent(o)
    ensures o.final == TermsOf(r).final
    ensures o.active ==> o.interest == SimpleInterest(o.approved, o.apr, r.weeks)
    ensures o.active ==> o.total == o.approved as real + SimpleInterest(o.approved, o.apr, r.weeks)
    ensures !o.active ==> o.interest == 0.0 && o.total == 0.0 && o.principalPer == 0.0 && o.interestPer == 0.0
  {
    Assemble(TermsOf(r), r.weeks, Installments(r.frequency, r.weeks))
  }

  /** A declined request still carries an approved amount: with score 300
      and volatility 100 the decision is Declined while the approved amount
      is the 30 floor of the offer clamp. */
  lemma DeclinedKeepsAmount()
    ensures Quote(LoanRequest(120, 8, Weekly, 300, 100)).decision == Declined
    ensures Quote(LoanRequest(120, 8, Weekly, 300, 100)).approved == 30
    ensures !Quote(LoanRequest(120, 8, Weekly, 300, 100)).active
  {
    assert FinalScore(300, 100) == 260.0;
    assert Trunc((260.0 - 300.0) / 600.0 * 600.0) == -40;
  }

  // ---------------------------------------------------------------
  // Repayment schedule
  // ---------------------------------------------------------------

  /** One schedule row. */
  datatype Installment = Installment(index: int, principal: real, interest: real, total: real, remaining: real)

  /** The balance left after `i` installments of `per` on `approved`. */
  function Outstanding(approved: real, per: real, i: nat): real
  {
    MaxR(0.0, approved - i as real * per)
  }

  function PrincipalPaid(rows: seq<Installment>): real
  {
    if |rows| == 0 then 0.0 else PrincipalPaid(rows[..|rows| - 1]) + rows[|rows| - 1].principal
  }

  /** The balance after the last row, or the whole amount before any. */
  function Balance(rows: seq<Installment>, approved: real): real
  {
    if |rows| == 0 then approved else rows[|rows| - 1].remaining
  }

  /** Row `j` (0-based) of a schedule: its number, a principal of at most
      one installment, the flat interest, their sum, and the balance in
      closed form. */
  predicate RowOk(row: Installment, j: nat, approved: real, per: real, interestPer: real)
  {
    && row.index == j + 1
    && 0.0 <= row.principal <= per
    && row.interest == interestPer
    && row.total == row.principal + row.interest
    && row.remaining == Outstanding(approved, per, j + 1)
  }

  /** The schedule loop: each row pays the smaller of `principalPer` and
      what is left (nothing once the balance reaches zero) plus a flat
      `interestPer`. */
  method Schedule(approved: real, principalPer: real, interestPer: real, n: nat) returns (rows: seq<Installment>)
    requires 0.0 <= approved && 0.0 <= principalPer
    ensures |rows| == n
    ensures forall j :: 0 <= j < n ==> RowOk(rows[j], j, approved, principalPer, interestPer)
    ensures forall j :: 0 <= j < n ==> 0.0 <= rows[j].remaining <= approved
    ensures forall j :: 0 < j < n ==> rows[j].remaining <= rows[j - 1].remaining
    ensures PrincipalPaid(rows) + Balance(rows, approved) == approved
  {
    rows := [];
    var remaining := approved;
    var i := 1;
    while i <= n
      invariant 1 <= i <= n + 1
      invariant |rows| == i - 1
      invariant remaining == Outstanding(approved, principalPer, i - 1)
      invariant forall j :: 0 <= j < |rows| ==> RowOk(rows[j], j, approved, principalPer, interestPer)
      invariant PrincipalPaid(rows) + remaining == approved
    {
      var principal := if remaining <= 0.0 then 0.0 else MinR(principalPer, remaining);
      var next := MaxR(0.0, remaining - principal);
      OutstandingStep(approved, principalPer, i - 1);
      var row := Installment(i, principal, interestPer, principal + interestPer, next);
      assert (rows + [row])[..|rows|] == rows;
      rows := rows + [row];
      remaining := next;
      i := i + 1;
    }
    forall j | 0 <= j < n
      ensures 0.0 <= rows[j].remaining <= approved
    {
      OutstandingBounds(approved, principalPer, j + 1);
    }
    forall j | 0 < j < n
      ensures rows[j].remaining <= rows[j - 1].remaining
    {
      OutstandingAntitone(approved, principalPer, j, j + 1);
    }
  }

  /** The balance never leaves `[0, approved]`. */
  lemma OutstandingBounds(approved: real, per: real, i: nat)
    requires 0.0 <= approved && 0.0 <= per
    ensures 0.0 <= Outstanding(approved, per, i) <= approved
  {
    assert 0.0 <= i as real * per;
  }

  /** The balance never rises from one period to a later one. */
  lemma OutstandingAntitone(approved: real, per: real, i: nat, j: nat)
    requires 0.0 <= per && i <= j
    ensures Outstanding(approved, per, j) <= Outstanding(approved, per, i)
  {
    assert j as real * per == i as real * per + (j - i) as real * per;
    assert 0.0 <= (j - i) as real * per;
  }

  /** One more period of the loop moves the balance from its closed form
      after `i` periods to its closed form after `i + 1`. */
  lemma OutstandingStep(approved: real, per: real, i: nat)
    requires 0.0 <= per
    ensures var b := Outstanding(approved, per, i);
      var principal := if b <= 0.0 then 0.0 else MinR(per, b);
      MaxR(0.0, b - principal) == Outstanding(approved, per, i + 1)
  {
    assert (i + 1) as real * per == i as real * per + per;
  }

  /** Paying `approved / n` for `n` periods clears the balance. */
  lemma OutstandingAtTerm(approved: real, per: real, n: nat)
    requires 0 < n && per * n as real == approved
    ensures Outstanding(approved, per, n) == 0.0
  {
  }

  /** With nothing to pay per period the balance never moves. */
  lemma OutstandingWithoutPayments(approved: real, i: nat)
    requires 0.0 <= approved
    ensures Outstanding(approved, 0.0, i) == approved
  {
  }

  /** What the schedule relies on in an offer: at least one installment,
      a non-negative amount, per-installment shares that add up to the
      amount and the interest when the offer is active, and nothing to
      pay per installment otherwise. */
  predicate Consistent(o: Offer)
  {
    && o.payments >= 1
    && 0 <= o.approved
    && 0.0 <= o.principalPer
    && (o.active ==> o.principalPer * o.payments as real == o.approved as real
                     && o.interestPer * o.payments as real == o.interest)
    && (!o.active ==> o.principalPer == 0.0 && o.interestPer == 0.0)
  }

  /** Every quote is consistent. */
  lemma QuoteConsistent(r: LoanRequest)
    ensures Consistent(Quote(r))
  {
    assert Quote(r) == Assemble(TermsOf(r), r.weeks, Installments(r.frequency, r.weeks));
  }

  /** The schedule the page builds for an offer. An active offer is repaid
      exactly: its principals add up to the approved amount and the last
      balance is zero. An inactive one (declined, or nothing approved) has
      rows of zero principal and zero interest and a balance that stays at
      the approved amount. */
  method RepaymentSchedule(o: Offer) returns (rows: seq<Installment>)
    requires Consistent(o)
    ensures |rows| == o.payments
    ensures forall j :: 0 <= j < |rows| ==> RowOk(rows[j], j, o.approved as real, o.principalPer, o.interestPer)
    ensures forall j :: 0 <= j < |rows| ==> rows[j].index == j + 1
    ensures forall j :: 0 < j < |rows| ==> rows[j].remaining <= rows[j - 1].remaining
    ensures forall j :: 0 <= j < |rows| ==> 0.0 <= rows[j].remaining
    ensures o.active ==> PrincipalPaid(rows) == o.approved as real
    ensures o.active ==> rows[|rows| - 1].remaining == 0.0
    ensures o.active ==> forall j :: 0 <= j < |rows| ==> rows[j].interest == o.interestPer
    ensures !o.active ==> forall j :: 0 <= j < |rows| ==>
      rows[j].principal == 0.0 && rows[j].interest == 0.0 && rows[j].remaining == o.approved as real
  {
    if o.active {
      rows := ActiveSchedule(o.approved as real, o.principalPer, o.interestPer, o.payments);
    } else {
      rows := IdleSchedule(o.approved as real, o.payments);
    }
  }

  /** The schedule of an active offer: the installments split the amount
      evenly, so it is repaid exactly. */
  method ActiveSchedule(approved: real, per: real, interestPer: real, n: int) returns (rows: seq<Installment>)
    requires 1 <= n && 0.0 <= approved && 0.0 <= per && per * n as real == approved
    ensures |rows| == n
    ensures forall j :: 0 <= j < |rows| ==> RowOk(rows[j], j, approved, per, interestPer)
    ensures forall j :: 0 <= j < |rows| ==> rows[j].index == j + 1
    ensures forall j :: 0 < j < |rows| ==> rows[j].remaining <= rows[j - 1].remaining
    ensures forall j :: 0 <= j < |rows| ==> 0.0 <= rows[j].remaining
    ensures PrincipalPaid(rows) == approved
    ensures rows[|rows| - 1].remaining == 0.0
    ensures forall j :: 0 <= j < |rows| ==> rows[j].interest == interestPer
  {
    rows := Schedule(approved, per, interestPer, n);
    ScheduleClears(rows, approved, per);
  }

  /** The schedule of an inactive offer: nothing per installment, so
      nothing is paid and the amount stays outstanding. */
  method IdleSchedule(approved: real, n: int) returns (rows: seq<Installment>)
    requires 1 <= n && 0.0 <= approved
    ensures |rows| == n
    ensures forall j :: 0 <= j < |rows| ==> RowOk(rows[j], j, approved, 0.0, 0.0)
    ensures forall j :: 0 <= j < |rows| ==> rows[j].index == j + 1
    ensures forall j :: 0 <= j < |rows| ==>
      rows[j].principal == 0.0 && rows[j].interest == 0.0 && rows[j].remaining == approved
  {
    rows := Schedule(approved, 0.0, 0.0, n);
    ScheduleIdle(rows, approved, 0.0);
  }

  /** A schedule whose installments add up to the amount ends with nothing
      outstanding, the whole amount repaid. */
  lemma ScheduleClears(rows: seq<Installment>, approved: real, per: real)
    requires |rows| > 0 && per * |rows| as real == approved
    requires rows[|rows| - 1].remaining == Outstanding(approved, per, |rows|)
    requires PrincipalPaid(rows) + Balance(rows, approved) == approved
    ensures rows[|rows| - 1].remaining == 0.0
    ensures PrincipalPaid(rows) == approved
  {
    OutstandingAtTerm(approved, per, |rows|);
  }

  /** A schedule with nothing to pay per installment pays nothing and
      leaves the whole amount outstanding. */
  lemma ScheduleIdle(rows: seq<Installment>, approved: real, interestPer: real)
    requires 0.0 <= approved && interestPer == 0.0
    requires forall j :: 0 <= j < |rows| ==> RowOk(rows[j], j, approved, 0.0, interestPer)
    ensures forall j :: 0 <= j < |rows| ==>
      rows[j].principal == 0.0 && rows[j].interest == 0.0 && rows[j].remaining == approved
  {
    forall j | 0 <= j < |rows|
      ensures rows[j].remaining == approved
    {
      OutstandingWithoutPayments(approved, j + 1);
    }
  }

  // ---------------------------------------------------------------
  // Flags
  // ---------------------------------------------------------------

  datatype Flag =
    | HighVolatilityRisk
    | WeakAiScore
    | AboveSafeThreshold
    | RequiresHumanVerification
    | StableForInstantApproval

  /** One test of the flag list: its flag goes in front of the later
      flags when the test holds. */
  function Raise(test: bool, f: Flag, rest: seq<Flag>): (fs: seq<Flag>)
    ensures forall g :: g in fs <==> (test && g == f) || g in rest
    ensures NoDup(rest) && f !in rest ==> NoDup(fs)
  {
    if test then [f] + rest else rest
  }

  /** The flag list built from the five tests, in the page's order. */
  function FlagList(highVolatility: bool, weakScore: bool, aboveOffer: bool, review: bool, instant: bool): (fs: seq<Flag>)
    ensures HighVolatilityRisk in fs <==> highVolatility
    ensures WeakAiScore in fs <==> weakScore
    ensures AboveSafeThreshold in fs <==> aboveOffer
    ensures RequiresHumanVerification in fs <==> review
    ensures StableForInstantApproval in fs <==> instant
    ensures NoDup(fs)
  {
    var s5 := Raise(instant, StableForInstantApproval, []);
    var s4 := Raise(review, RequiresHumanVerification, s5);
    var s3 := Raise(aboveOffer, AboveSafeThreshold, s4);
    var s2 := Raise(weakScore, WeakAiScore, s3);
    Raise(highVolatility, HighVolatilityRisk, s2)
  }

  /** The page's flags; each flag is an independent test. */
  function Flags(r: LoanRequest): (fs: seq<Flag>)
    ensures HighVolatilityRisk in fs <==> r.volatility > 60
    ensures WeakAiScore in fs <==> r.aiScore < 600
    ensures AboveSafeThreshold in fs <==> r.amount > TermsOf(r).maxOffer
    ensures RequiresHumanVerification in fs <==> TermsOf(r).decision == NeedsManualReview
    ensures StableForInstantApproval in fs <==> TermsOf(r).decision == Approved
    ensures NoDup(fs)
  {
    var t := TermsOf(r);
    FlagList(r.volatility > 60, r.aiScore < 600, r.amount > t.maxOffer,
             t.decision == NeedsManualReview, t.decision == Approved)
  }

  /** Manual review and instant approval are never flagged together. */
  lemma ReviewAndApprovalExclusive(r: LoanRequest)
    ensures !(RequiresHumanVerification in Flags(r) && StableForInstantApproval in Flags(r))
  {
  }

  /** An instantly approved profile (with volatility at least zero) never
      carries the weak-score flag. */
  lemma ApprovalExcludesWeakness(r: LoanRequest)
    requires 0 <= r.volatility
    requires StableForInstantApproval in Flags(r)
    ensures WeakAiScore !in Flags(r)
  {
  }
}

=== FILE: scoring.dfy ===
/** Feature extraction from a transaction ledger and the 0-100
    rule-based score (`app/utils/scoring.py`). */
module Scoring {
  import opened Common
  import opened Ledger

  // ---------------------------------------------------------------
  // Floats that may be NaN
  // ---------------------------------------------------------------

  /** A float feature: an exact real or NaN (pandas' sample standard
      deviation of a single value is NaN). */
  datatype Float = Finite(value: real) | NaN

  /** `x > c` on a float: every comparison with NaN is false. */
  predicate Above(x: Float, c: real)
  {
    x.Finite? && x.value > c
  }

  function DivF(x: Float, d: real): Float
    requires d != 0.0
  {
    match x
    case Finite(v) => Finite(v / d)
    case NaN => NaN
  }

  function Round2F(x: Float): Float
  {
    match x
    case Finite(v) => Finite(Round2(v))
    case NaN => NaN
  }

  // ---------------------------------------------------------------
  // Row classification
  // ---------------------------------------------------------------

  const RemittanceKeywords: seq<string> := ["remittance", "transfer_international"]
  const GigKeywords: seq<string> := ["gig", "upwork", "fiverr", "delivery", "rappi", "grab"]
  const MobileMoneyKeywords: seq<string> := ["ecocash", "mpesa", "m-pesa", "momo", "zalopay", "wallet"]

  /** The amount after `to_numeric(...).fillna(0.0)`. */
  function Amount(t: Txn): real
  {
    t.amount.GetOr(0.0)
  }

  predicate IsInflow(t: Txn) { Lower(t.kind) == "inflow" }

  predicate IsOutflow(t: Txn) { Lower(t.kind) == "outflow" }

  predicate IsRemittance(t: Txn) { ContainsAny(Lower(t.category), RemittanceKeywords) }

  predicate IsGig(t: Txn) { ContainsAny(Lower(t.category), GigKeywords) }

  predicate IsMobileMoney(t: Txn) { ContainsAny(Lower(t.category), MobileMoneyKeywords) }

  /** Which rows a monthly aggregate ranges over. */
  datatype Selector = Inflows | Outflows | GigRows | AllRows

  predicate Selected(s: Selector, t: Txn)
  {
    match s
    case Inflows => IsInflow(t)
    case Outflows => IsOutflow(t)
    case GigRows => IsGig(t)
    case AllRows => true
  }

  /** `t` is a selected row whose (parsed) date falls in month `m`;
      rows with a NaT date fall in no month, as in a pandas `groupby`. */
  predicate InMonth(s: Selector, t: Txn, m: int)
  {
    Selected(s, t) && t.date.Some? && t.date.value.month == m
  }

  // ---------------------------------------------------------------
  // Monthly aggregates
  // ---------------------------------------------------------------

  /** Some selected row is dated in month `m`. */
  predicate HasMonth(rows: seq<Txn>, s: Selector, m: int)
  {
    exists i :: 0 <= i < |rows| && InMonth(s, rows[i], m)
  }

  lemma HasMonthCons(rows: seq<Txn>, s: Selector)
    requires |rows| > 0
    ensures forall m :: HasMonth(rows, s, m) <==> InMonth(s, rows[0], m) || HasMonth(rows[1..], s, m)
  {
    forall m | HasMonth(rows, s, m) && !InMonth(s, rows[0], m)
      ensures HasMonth(rows[1..], s, m)
    {
      var i :| 0 <= i < |rows| && InMonth(s, rows[i], m);
      assert InMonth(s, rows[1..][i - 1], m);
    }
    forall m | HasMonth(rows[1..], s, m)
      ensures HasMonth(rows, s, m)
    {
      var i :| 0 <= i < |rows[1..]| && InMonth(s, rows[1..][i], m);
      assert InMonth(s, rows[i + 1], m);
    }
  }

  /** The month `t` is grouped under, if it is selected and dated. */
  function MonthKey(s: Selector, t: Txn): (k: Option<int>)
    ensures forall m :: InMonth(s, t, m) <==> k == Some(m)
  {
    if Selected(s, t) && t.date.Some? then Some(t.date.value.month) else None
  }

  /** The group keys of `df[selected].groupby("ym")`: each month holding a
      selected dated row, once. */
  function MonthsOf(rows: seq<Txn>, s: Selector): (ms: seq<int>)
    ensures NoDup(ms)
    ensures forall m :: m in ms <==> HasMonth(rows, s, m)
  {
    if |rows| == 0 then []
    else
      var rest := MonthsOf(rows[1..], s);
      HasMonthCons(rows, s);
      match MonthKey(s, rows[0])
      case Some(m) => if m in rest then rest else [m] + rest
      case None => rest
  }

  /** The `groupby("ym")["amount"].sum()` entry of month `m`
      (0 when the month has no selected row). */
  function MonthTotal(rows: seq<Txn>, s: Selector, m: int): real
  {
    if |rows| == 0 then 0.0
    else (if InMonth(s, rows[0], m) then Amount(rows[0]) else 0.0) + MonthTotal(rows[1..], s, m)
  }

  /** The monthly series: one total per month of `ms`. */
  function Series(rows: seq<Txn>, s: Selector, ms: seq<int>): (xs: seq<real>)
    ensures |xs| == |ms|
    ensures forall k :: 0 <= k < |ms| ==> xs[k] == MonthTotal(rows, s, ms[k])
  {
    if |ms| == 0 then [] else [MonthTotal(rows, s, ms[0])] + Series(rows, s, ms[1..])
  }

  /** Sum of amounts of the selected rows that carry a date. */
  function DatedTotal(rows: seq<Txn>, s: Selector): real
  {
    if |rows| == 0 then 0.0
    else (if Selected(s, rows[0]) && rows[0].date.Some? then Amount(rows[0]) else 0.0)
         + DatedTotal(rows[1..], s)
  }

  /** `df.loc[df["type"] == kind, "amount"].sum()`: every selected row,
      dated or not. */
  function FlowTotal(rows: seq<Txn>, s: Selector): real
  {
    if |rows| == 0 then 0.0
    else (if Selected(s, rows[0]) then Amount(rows[0]) else 0.0) + FlowTotal(rows[1..], s)
  }

  lemma {:induction false} MonthTotalAppend(a: seq<Txn>, b: seq<Txn>, s: Selector, m: int)
    ensures MonthTotal(a + b, s, m) == MonthTotal(a, s, m) + MonthTotal(b, s, m)
    decreases |a|
  {
    if |a| > 0 {
      assert (a + b)[1..] == a[1..] + b;
      MonthTotalAppend(a[1..], b, s, m);
    } else {
      assert a + b == b;
    }
  }

  lemma {:induction false} FlowTotalAppend(a: seq<Txn>, b: seq<Txn>, s: Selector)
    ensures FlowTotal(a + b, s) == FlowTotal(a, s) + FlowTotal(b, s)
    decreases |a|
  {
    if |a| > 0 {
      assert (a + b)[1..] == a[1..] + b;
      FlowTotalAppend(a[1..], b, s);
    } else {
      assert a + b == b;
    }
  }

  function Mean(xs: seq<real>): real
    requires |xs| > 0
  {
    SumR(xs) / |xs| as real
  }

  function SumSquares(xs: seq<real>, mu: real): real
  {
    if |xs| == 0 then 0.0 else (xs[0] - mu) * (xs[0] - mu) + SumSquares(xs[1..], mu)
  }

  /** pandas' `Series.std()` (ddof = 1): NaN for fewer than two values.
      `root` is the square root, which the model leaves to the caller. */
  function SampleStd(xs: seq<real>, root: real -> real): Float
  {
    if |xs| < 2 then NaN
    else Finite(root(SumSquares(xs, Mean(xs)) / (|xs| - 1) as real))
  }

  // ---------------------------------------------------------------
  // Regrouping: the monthly totals add up to the dated total
  // ---------------------------------------------------------------

  /** What row `t` adds to the totals of the months `ms`. */
  function Share(t: Txn, s: Selector, ms: seq<int>): real
  {
    if |ms| == 0 then 0.0
    else (if InMonth(s, t, ms[0]) then Amount(t) else 0.0) + Share(t, s, ms[1..])
  }

  lemma {:induction false} SeriesSplit(rows: seq<Txn>, s: Selector, ms: seq<int>)
    requires |rows| > 0
    ensures SumR(Series(rows, s, ms)) == Share(rows[0], s, ms) + SumR(Series(rows[1..], s, ms))
    decreases |ms|
  {
    if |ms| > 0 {
      SeriesSplit(rows, s, ms[1..]);
      assert Series(rows, s, ms)[1..] == Series(rows, s, ms[1..]);
      assert Series(rows[1..], s, ms)[1..] == Series(rows[1..], s, ms[1..]);
    }
  }

  lemma {:induction false} ShareOutside(t: Txn, s: Selector, ms: seq<int>)
    requires !(Selected(s, t) && t.date.Some? && t.date.value.month in ms)
    ensures Share(t, s, ms) == 0.0
    decreases |ms|
  {
    if |ms| > 0 {
      ShareOutside(t, s, ms[1..]);
    }
  }

  lemma {:induction false} ShareInside(t: Txn, s: Selector, ms: seq<int>)
    requires NoDup(ms)
    requires Selected(s, t) && t.date.Some? && t.date.value.month in ms
    ensures Share(t, s, ms) == Amount(t)
    decreases |ms|
  {
    if ms[0] == t.date.value.month {
      assert t.date.value.month !in ms[1..];
      ShareOutside(t, s, ms[1..]);
    } else {
      ShareInside(t, s, ms[1..]);
    }
  }

  lemma {:induction false} SeriesOfNothing(s: Selector, ms: seq<int>)
    ensures SumR(Series([], s, ms)) == 0.0
    decreases |ms|
  {
    if |ms| > 0 {
      SeriesOfNothing(s, ms[1..]);
      assert Series([], s, ms)[1..] == Series([], s, ms[1..]);
    }
  }

  /** Summing the monthly totals over a duplicate-free list of months that
      covers every selected dated row gives the sum over those rows. */
  lemma {:induction false} MonthlyTotalsAddUp(rows: seq<Txn>, s: Selector, ms: seq<int>)
    requires NoDup(ms)
    requires forall i, m :: 0 <= i < |rows| && InMonth(s, rows[i], m) ==> m in ms
    ensures SumR(Series(rows, s, ms)) == DatedTotal(rows, s)
    decreases |rows|
  {
    if |rows| == 0 {
      SeriesOfNothing(s, ms);
    } else {
      SeriesSplit(rows, s, ms);
      var t := rows[0];
      if Selected(s, t) && t.date.Some? {
        assert InMonth(s, rows[0], t.date.value.month);
        ShareInside(t, s, ms);
      } else {
        ShareOutside(t, s, ms);
      }
      forall i, m | 0 <= i < |rows[1..]| && InMonth(s, rows[1..][i], m) ensures m in ms {
        assert InMonth(s, rows[i + 1], m);
      }
      MonthlyTotalsAddUp(rows[1..], s, ms);
    }
  }

  // ---------------------------------------------------------------
  // Counts and signals
  // ---------------------------------------------------------------

  /** A month whose outflow exceeds its inflow by more than 10 %. */
  predicate IsOverdraftMonth(rows: seq<Txn>, m: int)
  {
    MonthTotal(rows, Outflows, m) > 1.1 * MonthTotal(rows, Inflows, m)
  }

  /** The number of months of `ms` that are overdraft months. */
  function OverdraftCount(rows: seq<Txn>, ms: seq<int>): (n: nat)
    ensures n <= |ms|
    ensures n == 0 <==> forall k :: 0 <= k < |ms| ==> !IsOverdraftMonth(rows, ms[k])
  {
    if |ms| == 0 then 0
    else (if IsOverdraftMonth(rows, ms[0]) then 1 else 0) + OverdraftCount(rows, ms[1..])
  }

  function RemittanceCount(rows: seq<Txn>): (n: nat)
    ensures n <= |rows|
    ensures n == 0 <==> forall i :: 0 <= i < |rows| ==> !IsRemittance(rows[i])
  {
    if |rows| == 0 then 0
    else (if IsRemittance(rows[0]) then 1 else 0) + RemittanceCount(rows[1..])
  }

  /** The overdraft count adds over a split of the months, and one month
      counts 1 exactly when it is an overdraft month: it is the number of
      overdraft months of `ms`. */
  lemma {:induction false} OverdraftCountAppend(rows: seq<Txn>, a: seq<int>, b: seq<int>)
    ensures OverdraftCount(rows, a + b) == OverdraftCount(rows, a) + OverdraftCount(rows, b)
    ensures |a| == 1 ==> OverdraftCount(rows, a) == if IsOverdraftMonth(rows, a[0]) then 1 else 0
  {
    if |a| == 0 {
      assert a + b == b;
    } else {
      assert (a + b)[1..] == a[1..] + b;
      OverdraftCountAppend(rows, a[1..], b);
      assert |a| == 1 ==> a[1..] == [];
    }
  }

  /** The remittance count adds over a split of the ledger, and one row
      counts 1 exactly when its category mentions a remittance keyword: it
      is the number of such rows. */
  lemma {:induction false} RemittanceCountAppend(a: seq<Txn>, b: seq<Txn>)
    ensures RemittanceCount(a + b) == RemittanceCount(a) + RemittanceCount(b)
    ensures |a| == 1 ==> RemittanceCount(a) == if IsRemittance(a[0]) then 1 else 0
  {
    if |a| == 0 {
      assert a + b == b;
    } else {
      assert (a + b)[1..] == a[1..] + b;
      RemittanceCountAppend(a[1..], b);
      assert |a| == 1 ==> a[1..] == [];
    }
  }

  function MobileMoneySignal(rows: seq<Txn>): (b: bool)
    ensures b <==> exists i :: 0 <= i < |rows| && IsMobileMoney(rows[i])
  {
    if |rows| == 0 then false
    else IsMobileMoney(rows[0]) || MobileMoneySignal(rows[1..])
  }

  // ---------------------------------------------------------------
  // compute_features
  // ---------------------------------------------------------------

  datatype Features = Features(
    avgInflow: real,
    incomeVolatility: Float,
    expenseRatio: real,
    overdraftCount: nat,
    remittanceCount: nat,
    gigMonthsActive: nat,
    mobileMoneySignal: bool)

  /** The fixed answer for an empty ledger. */
  const EmptyFeatures := Features(0.0, Finite(1.0), 1.0, 0, 0, 0, false)

  /** Coefficient of variation of the monthly inflow, with the 1.0
      sentinel when there is no inflow month or the mean is zero. */
  function IncomeVolatility(series: seq<real>, root: real -> real): (v: Float)
    ensures |series| == 0 || Mean(series) == 0.0 ==> v == Finite(1.0)
    ensures |series| > 0 && Mean(series) != 0.0 ==> (v == NaN <==> |series| == 1)
  {
    if |series| > 0 && Mean(series) != 0.0 then DivF(SampleStd(series, root), Mean(series))
    else Finite(1.0)
  }

  /** The mean of the monthly inflow series: the dated inflow total
      spread over the months that have inflow (0 with no such month). */
  function AvgInflow(rows: seq<Txn>): (a: real)
    ensures var ms := MonthsOf(rows, Inflows);
      a == if |ms| > 0 then DatedTotal(rows, Inflows) / |ms| as real else 0.0
  {
    var ms := MonthsOf(rows, Inflows);
    MonthlyTotalsAddUp(rows, Inflows, ms);
    if |ms| > 0 then Mean(Series(rows, Inflows, ms)) else 0.0
  }

  /** The number of months with a dated gig row; never more than the
      number of dated months of the ledger. */
  function GigMonthsActive(rows: seq<Txn>): (n: nat)
    ensures n == |MonthsOf(rows, GigRows)|
    ensures n <= |MonthsOf(rows, AllRows)|
    ensures n > 0 <==> exists i :: 0 <= i < |rows| && IsGig(rows[i]) && rows[i].date.Some?
  {
    var gig := MonthsOf(rows, GigRows);
    var all := MonthsOf(rows, AllRows);
    forall m | m in gig ensures m in all {
      var i :| 0 <= i < |rows| && InMonth(GigRows, rows[i], m);
      assert InMonth(AllRows, rows[i], m);
      assert HasMonth(rows, AllRows, m);
    }
    NoDupSubsetLength(gig, all);
    assert |gig| > 0 ==> HasMonth(rows, GigRows, gig[0]);
    assert (exists i :: 0 <= i < |rows| && IsGig(rows[i]) && rows[i].date.Some?) ==> |gig| > 0 by {
      if i :| 0 <= i < |rows| && IsGig(rows[i]) && rows[i].date.Some? {
        assert InMonth(GigRows, rows[i], rows[i].date.value.month);
        assert rows[i].date.value.month in gig;
      }
    }
    |gig|
  }

  /** Total outflow over total inflow, with the 1.0 sentinel when there is
      no positive inflow. */
  function ExpenseRatio(rows: seq<Txn>): (r: real)
    ensures FlowTotal(rows, Inflows) > 0.0 ==> r * FlowTotal(rows, Inflows) == FlowTotal(rows, Outflows)
    ensures FlowTotal(rows, Inflows) <= 0.0 ==> r == 1.0
  {
    var totalIn := FlowTotal(rows, Inflows);
    if totalIn > 0.0 then FlowTotal(rows, Outflows) / totalIn else 1.0
  }

  /** `compute_features`. */
  function ComputeFeatures(rows: seq<Txn>, root: real -> real): (f: Features)
    ensures |rows| == 0 ==> f == EmptyFeatures
    ensures |rows| > 0 ==>
      var ms := MonthsOf(rows, Inflows);
      var totalIn := FlowTotal(rows, Inflows);
      && f.avgInflow == (if |ms| > 0 then Round2(DatedTotal(rows, Inflows) / |ms| as real) else 0.0)
      && ((|ms| == 0 || Mean(Series(rows, Inflows, ms)) == 0.0) ==> f.incomeVolatility == Finite(1.0))
      && f.expenseRatio == (if totalIn > 0.0 then Round2(FlowTotal(rows, Outflows) / totalIn) else 1.0)
      && f.overdraftCount == OverdraftCount(rows, ms) && f.overdraftCount <= |ms|
      && (f.overdraftCount == 0 <==> forall k :: 0 <= k < |ms| ==> !IsOverdraftMonth(rows, ms[k]))
      && f.gigMonthsActive == |MonthsOf(rows, GigRows)| && f.gigMonthsActive <= |MonthsOf(rows, AllRows)|
      && (f.gigMonthsActive > 0 <==> exists i :: 0 <= i < |rows| && IsGig(rows[i]) && rows[i].date.Some?)
    ensures f.remittanceCount == RemittanceCount(rows) && f.remittanceCount <= |rows|
    ensures f.remittanceCount == 0 <==> forall i :: 0 <= i < |rows| ==> !IsRemittance(rows[i])
    ensures f.mobileMoneySignal <==> exists i :: 0 <= i < |rows| && IsMobileMoney(rows[i])
  {
    if |rows| == 0 then EmptyFeatures
    else
      var ms := MonthsOf(rows, Inflows);
      assert RoundHalfEven(100.0) == 100;
      Features(
        Round2(AvgInflow(rows)),
        Round2F(IncomeVolatility(Series(rows, Inflows, ms), root)),
        Round2(ExpenseRatio(rows)),
        OverdraftCount(rows, ms),
        RemittanceCount(rows),
        GigMonthsActive(rows),
        MobileMoneySignal(rows))
  }

  /** With exactly one inflow month the pandas standard deviation is NaN,
      so the extracted volatility is NaN rather than the 1.0 sentinel. */
  lemma SingleInflowMonthVolatility(rows: seq<Txn>, root: real -> real)
    requires |MonthsOf(rows, Inflows)| == 1
    requires MonthTotal(rows, Inflows, MonthsOf(rows, Inflows)[0]) != 0.0
    ensures ComputeFeatures(rows, root).incomeVolatility == NaN
  {
    var ms := MonthsOf(rows, Inflows);
    assert HasMonth(rows, Inflows, ms[0]);
    var i :| 0 <= i < |rows| && InMonth(Inflows, rows[i], ms[0]);
    var series := Series(rows, Inflows, ms);
    assert series[1..] == [];
    assert SumR(series) == series[0];
    assert IncomeVolatility(series, root) == NaN;
    assert ComputeFeatures(rows, root).incomeVolatility == Round2F(IncomeVolatility(series, root));
  }

  // ---------------------------------------------------------------
  // rule_based_score
  // ---------------------------------------------------------------

  datatype Band = Red | Amber | Green | Prime

  function InflowAdjustment(avgInflow: real): int
  {
    if avgInflow >= 800.0 then 15 else if avgInflow >= 400.0 then 5 else 0
  }

  function VolatilityAdjustment(v: Float): int
  {
    if Above(v, 0.6) then -10 else if Above(v, 0.4) then -5 else 0
  }

  function ExpenseAdjustment(ratio: real): int
  {
    if ratio > 0.95 then -12 else if ratio > 0.8 then -6 else if ratio < 0.6 then 4 else 0
  }

  /** `min(24, 8 * overdraft_count)`. */
  function OverdraftPenalty(count: nat): int
  {
    Min(24, 8 * count)
  }

  /** The additive score before the clamp. */
  function RawScore(f: Features): int
  {
    50
    + InflowAdjustment(f.avgInflow)
    + VolatilityAdjustment(f.incomeVolatility)
    + ExpenseAdjustment(f.expenseRatio)
    - OverdraftPenalty(f.overdraftCount)
    + (if f.remittanceCount >= 3 then 6 else 0)
    + (if f.gigMonthsActive >= 3 then 8 else 0)
    + (if f.mobileMoneySignal then 4 else 0)
  }

  function BandOf(score: int): (b: Band)
    ensures b == Prime <==> score >= 86
    ensures b == Green <==> 70 <= score < 86
    ensures b == Amber <==> 50 <= score < 70
    ensures b == Red <==> score < 50
  {
    if score >= 86 then Prime else if score >= 70 then Green else if score >= 50 then Amber else Red
  }

  datatype ScoreBand = ScoreBand(score: int, band: Band)

  function RuleBasedScore(f: Features): (r: ScoreBand)
    ensures 0 <= r.score <= 100
    ensures r.band == BandOf(r.score)
  {
    var score := Clip(RawScore(f), 0, 100);
    ScoreBand(score, BandOf(score))
  }

  /** The adjustments alone keep the score within [4, 87], so the clamp
      to [0, 100] never changes it. */
  lemma RawScoreBounds(f: Features)
    ensures 4 <= RawScore(f) <= 87
    ensures RuleBasedScore(f).score == RawScore(f)
  {
  }

  /** More overdraft months never raise the score. */
  lemma OverdraftsNeverHelp(f: Features, more: nat)
    requires f.overdraftCount <= more
    ensures RuleBasedScore(f.(overdraftCount := more)).score <= RuleBasedScore(f).score
  {
  }

  /** The overdraft penalty saturates at three months. */
  lemma OverdraftPenaltySaturates(f: Features)
    requires f.overdraftCount >= 3
    ensures RuleBasedScore(f) == RuleBasedScore(f.(overdraftCount := 3))
  {
  }

  /** A NaN volatility (one inflow month) draws no volatility penalty,
      while the 1.0 sentinel draws the full one. */
  lemma NaNVolatilityIsUnpenalised()
    ensures VolatilityAdjustment(NaN) == 0
    ensures VolatilityAdjustment(Finite(1.0)) == -10
  {
  }

  /** The empty-ledger features score 50 + 0 - 10 - 12 = 28, band Red. */
  lemma EmptyLedgerScore(root: real -> real)
    ensures RuleBasedScore(ComputeFeatures([], root)) == ScoreBand(28, Red)
  {
  }
}
